=== FILE: README.md ===
# FarmSmart dashboard: the message router, unit normalizer and records pagination

This project is a Dafny model of the browser side of the FarmSmart smart-farm
dashboard. It covers two scripts.

- `WEB/script.js`, the live dashboard. The MQTT `message` handler sends each
  inbound (topic, payload) pair to one of these:
  - the system-status branch, which holds the EMERGENCY/RECOVERY flags;
  - a sensor decoder, which converts raw readings into display strings
    (water temperature ÷10 with one place, pH ÷100 with two places, EC
    unscaled with no places, SCD41 fields taken as they are);
  - the device-status branch, which holds the on/off state of four devices.

  The click handlers publish control commands and flip the two system flags.
  The connect handler requests every device's status.
- `WEB/records.js`, the history page. `loadData` turns API records into
  table rows. `createCharts` draws the newest 144 rows, oldest first.
  `updateTable` shows pages of 20 rows; it reads the current page back from
  the text of the page-info element. `updatePageButtons` draws a window of
  ten page links and four navigation links, and attaches their click
  handlers.

Modules, one per file:

| file | module | contents |
|---|---|---|
| `js_values.dfy` | `JsValues` | parsed JSON values and the JavaScript coercions the handlers use: `Number`, `isNaN`, property access, truthiness, `split`, the text of an integer |
| `normalizer.dfy` | `Normalizer` | the per-channel decoders; the fixed-point display `Decimal(mantissa, decimals)`, read as mantissa / 10^decimals |
| `live_model.dfy` | `LiveModel` | topics, devices, the dashboard state as a value, and the router and user actions as transition functions, with their properties |
| `live_state.dfy` | `LiveState` | class `Dashboard`: the script's module-level records as fields; each handler is a method specified by its `LiveModel` transition |
| `records_model.dfy` | `RecordsModel` | record shaping, chart series, the tick rule and label shortening, page arithmetic, the page-number window, link targets, and the page-info text |
| `records_state.dfy` | `RecordsState` | the records page's state as a value, and the transitions of `loadData`, `updateTable`, `updatePageButtons` and the link clicks |
| `records_view.dfy` | `RecordsView` | class `RecordsPage`: the page's variables and DOM outputs as fields; its methods copy rows and draw links in loops, as the source does |

The MQTT client, the clock, `fetch` and the browser's date formatting are
inputs to the model:
- the MQTT client is the sequence of inbound messages and the `connected` flag;
- the clock and date formatting are a `clock: Json -> Stamp` parameter;
- the outcome of `fetch` and `JSON.parse` is an `ApiResponse` value.

A payload that `JSON.parse` rejects is `Unparseable(text)`.

## Model

| member | source | states |
|---|---|---|
| JsValues.NatTextValue | WEB/records.js:472 | the decimal text written into the page-info element reads back, digit by digit, as the same number |
| JsValues.StringToNumber | WEB/script.js:285-287 | `Number(s)` on a string: "" is 0, an all-digit string is its value, "-digits" and "+digits" are the signed value, and a string is a number exactly when it has one of these forms |
| JsValues.ToNumber | WEB/script.js:285-287 | `Number(x)`: a number is itself, `null` is 0, `true`/`false` are 1/0, a string is read by `StringToNumber`, an object is NaN |
| JsValues.Coerce | WEB/script.js:285-287 | `Number(undefined)` is NaN |
| JsValues.Property | WEB/script.js:299-314 | `data.name` is defined exactly when `data` is an object with that field, and is then that field's value |
| JsValues.Split | WEB/records.js:326-329 | `split` always gives at least one piece |
| JsValues.SplitJoin | WEB/records.js:326-329 | joining the pieces of `split` gives the string back, and no piece contains the separator |
| JsValues.SplitWithoutSeparator | WEB/records.js:326-332 | a string without the separator splits into itself alone |
| JsValues.NatText | WEB/records.js:472 | `${n}` is a non-empty run of digits with no leading zero |
| JsValues.Truthy | WEB/records.js:142 | no contract of its own: JavaScript truthiness, false for `undefined`, `null`, `false`, 0 and "" |
| JsValues.SplitAtSeparator | WEB/records.js:326-329 | splitting `a + sep + b`, where `a` has no separator, gives `a` followed by the pieces of `b` |
| Normalizer.ToFixed | WEB/script.js:285-287 | `toFixed(k)` of NaN prints "NaN"; of a number n it prints a k-place decimal whose value is n |
| Normalizer.NumericOrDashes | WEB/script.js:285-287 | the `!isNaN(v) ? Number(v).toFixed(k) : '--'` guard shows '--' exactly when v coerces to NaN, and otherwise the coerced value with k places |
| Normalizer.ScaledDisplay | WEB/script.js:314-317 | a resolved number shows as n / 10^k with k places; `null` shows '--'; `undefined` shows "NaN" |
| Normalizer.DecodeWaterTemp | WEB/script.js:296-318 | the water-temperature handler throws exactly on a `null` payload and otherwise always writes its channel |
| Normalizer.DecodePh | WEB/script.js:321-343 | the pH handler throws exactly on a `null` payload and otherwise always writes its channel |
| Normalizer.Resolve | WEB/script.js:299-314 | no contract of its own: the `value`, then channel field, then bare-number chain of the water-temperature and pH handlers; its properties are `WaterTempFieldOrder`, `PhFieldOrder` and `ValueFieldShadowsChannel` |
| Normalizer.DecodeEc | WEB/script.js:346-358 | the EC handler throws exactly on a `null` payload |
| Normalizer.EcFieldOrder | WEB/script.js:349-355 | EC: `value`, then `ec`, then a bare number, unscaled with 0 places; a present non-numeric field shows '--'; a non-numeric bare string leaves the channel unchanged, where the water-temperature handler shows "NaN" |
| Normalizer.DecodeScd41 | WEB/script.js:280-293 | the SCD41 handler throws exactly on `null`; otherwise no field ever shows "NaN" |
| Normalizer.AquariumField | WEB/script.js:361-364 | `field.toFixed(k)` succeeds exactly on a JSON number and shows that number unscaled |
| Normalizer.WaterTempFieldOrder | WEB/script.js:299-314 | water temperature: `value` decides when present, else `temperature`, else a bare number; a present non-numeric field shows '--'; one place |
| Normalizer.PhFieldOrder | WEB/script.js:324-339 | pH: `value`, then `ph`, then a bare number, with two places |
| Normalizer.ValueFieldShadowsChannel | WEB/script.js:299-306 | when `value` is present, adding, changing or removing the channel's own field does not change the result |
| Normalizer.ScaledChannelsDivide | WEB/script.js:314-317 | a shown water temperature, times 10, is the raw reading |
| Normalizer.WaterTempWithoutFieldShowsNaN | WEB/script.js:299-317 | an object with neither `value` nor `temperature` shows "NaN", not '--' |
| Normalizer.EcWithoutReadingIsUnchanged | WEB/script.js:349-355 | an EC object with neither `value` nor `ec` leaves the channel as it was |
| LiveModel.DeviceOfStatusTopic | WEB/script.js:370-372 | a topic names a device exactly when it is that device's status topic |
| LiveModel.SensorData.Put | WEB/script.js:49-56 | writing one channel changes that channel and no other |
| LiveModel.DeviceStatus.Set | WEB/script.js:59-64 | writing one device's state changes that device and no other |
| LiveModel.Initial | WEB/script.js:49-70 | at page load every channel shows '--', every device is off, no flag is set, nothing has been published |
| LiveModel.SystemMessage | WEB/script.js:247-272 | a parsed system message leaves at most one flag set: EMERGENCY iff `status` is "emergency", RECOVERY iff it is "recovery"; an unparseable one changes nothing |
| LiveModel.Store | WEB/script.js:296-358 | a single-channel handler throws iff its decoder does, writes only its own channel, and touches no device, flag or publish |
| LiveModel.LightAt | WEB/script.js:407-415 | indices 0 to 2, and only those, name a light; none of them is the motor |
| LiveModel.ToggleDevice | WEB/script.js:407-415 | toggling a light publishes the opposite of its recorded state on its control topic, and changes no local state |
| LiveModel.ToggleMotor | WEB/script.js:421-443 | while disconnected nothing happens; otherwise the opposite state is published at QoS 1, and turning the motor on clears RECOVERY; EMERGENCY is never touched |
| LiveModel.ClickEmergency | WEB/script.js:535-549 | the EMERGENCY click flips EMERGENCY; setting it clears RECOVERY; the flags stay exclusive |
| LiveModel.ClickRecovery | WEB/script.js:552-566 | the RECOVERY click flips RECOVERY; setting it clears EMERGENCY; the flags stay exclusive |
| LiveModel.UpdateButtonState | WEB/script.js:123-129 | with its button present, a light's recorded state becomes `isOn`; otherwise nothing changes |
| LiveModel.UpdateMotorButtonState | WEB/script.js:450-462 | with the motor button present at index 0, the motor's state becomes `isOn`; otherwise nothing changes |
| LiveModel.Connect | WEB/script.js:211 | on connect, exactly one publish is appended, "all" on the request-status topic; earlier publishes, sensors, devices and flags are unchanged |
| LiveModel.SetFromStatusText | WEB/script.js:373 | no contract of its own: the device is set to "text is '1'"; its property is `DeviceStatusMessage` |
| LiveModel.AquariumWrites | WEB/script.js:361-364 | no contract of its own: the three writes in turn, stopping at the first throw; its properties are `AquariumStopsAtFirstBadField`, `AquariumWritesAll` and `AquariumKeepsFlags` |
| LiveModel.TryHandle | WEB/script.js:276-381 | no contract of its own: the try block of the handler for a parsed payload; its properties are the Route lemmas below |
| LiveModel.Caught | WEB/script.js:382-398 | no contract of its own: the catch block, which still applies a device-status text |
| LiveModel.Route | WEB/script.js:243-399 | no contract of its own: the whole message handler; its properties are the lemmas from `SystemMessageTouchesOnlyFlags` to `SensorTopicsTouchOnlySensors` |
| LiveModel.Step | WEB/script.js:243-566 | no contract of its own: one message, click or connect; its properties are `StepKeepsExclusive` and `StepRequests` |
| LiveModel.Run | WEB/script.js:243-566 | no contract of its own: a sequence of events in order; its properties are `ExclusiveOnEveryRun` and `RequestsOnePerConnect` |
| LiveModel.TopicsDistinct | WEB/script.js:22-44 | no device status topic equals a sensor topic or the system topic |
| LiveModel.SystemMessageTouchesOnlyFlags | WEB/script.js:247-272 | a system-status message changes only the flags, as `SystemMessage` says |
| LiveModel.DeviceStatusMessage | WEB/script.js:370-396 | a device-status message sets that device to "payload text is '1'", whether or not the payload parses as JSON |
| LiveModel.UnknownTopicIgnored | WEB/script.js:243-399 | a message on any other topic changes nothing |
| LiveModel.NullSensorPayloadIgnored | WEB/script.js:280-367 | a `null` payload on a sensor topic changes nothing, because every handler throws before writing |
| LiveModel.UnparseableSensorPayloadIgnored | WEB/script.js:276-277 | an unparseable payload on a sensor topic changes nothing |
| LiveModel.Scd41SetsEachChannel | WEB/script.js:280-293 | an SCD41 message sets temperature, humidity and CO2 each from its own field, with 1, 1 and 0 places, and changes nothing else |
| LiveModel.SingleChannelMessage | WEB/script.js:296-358 | a water-temperature, pH or EC message writes its own channel, if its decoder shows a value, and changes nothing else |
| LiveModel.AquariumStopsAtFirstBadField | WEB/script.js:361-364 | a numeric temperature followed by a non-numeric pH updates the water temperature only |
| LiveModel.AquariumWritesAll | WEB/script.js:361-364 | a well-formed aquarium message writes all three water channels, unscaled |
| LiveModel.RouteKeepsExclusive | WEB/script.js:243-399 | no message can set both EMERGENCY and RECOVERY |
| LiveModel.AquariumKeepsFlags | WEB/script.js:361-367 | the aquarium branch touches neither devices, flags nor publishes |
| LiveModel.ToggleThenEchoFlips | WEB/script.js:407-415 | toggling a light and then receiving the echo of what was published flips that light, and only that light |
| LiveModel.MotorOnThenEcho | WEB/script.js:427-442 | after turning the motor on and receiving its echo, the motor is on, RECOVERY is off and EMERGENCY is unchanged |
| LiveModel.EmergencyThenRecovery | WEB/script.js:535-566 | from any state with at most one flag set, pressing EMERGENCY and then RECOVERY leaves RECOVERY alone set |
| LiveModel.StepKeepsExclusive | WEB/script.js:243-566 | every message, click and connect keeps the two flags exclusive |
| LiveModel.ExclusiveOnEveryRun | WEB/script.js:243-566 | along any sequence of events from an exclusive state, EMERGENCY and RECOVERY are never both set |
| LiveModel.RoutePublishesNothing | WEB/script.js:243-399 | no message, on any topic, publishes anything |
| LiveModel.StepRequests | WEB/script.js:211 | a connect adds one status request; no other event adds any |
| LiveModel.RequestsOnePerConnect | WEB/script.js:211 | along any sequence of events, the status requests published are exactly one per connect |
| LiveModel.SensorTopicsTouchOnlySensors | WEB/script.js:280-367 | a sensor message never changes devices, flags or publishes |
| LiveState.Dashboard.constructor | WEB/script.js:49-70 | the new dashboard is the initial state |
| LiveState.Dashboard.SetFromText | WEB/script.js:373 | the device's state becomes "text is '1'" |
| LiveState.Dashboard.StoreReading | WEB/script.js:296-358 | the fields change as `Store` says, and it reports whether the handler threw |
| LiveState.Dashboard.OnMessage | WEB/script.js:243-399 | the handler, with its try/catch, performs `Route` on the fields and keeps the flags exclusive |
| LiveState.Dashboard.AquariumMessage | WEB/script.js:361-364 | the three writes happen in turn and stop at the first throw, as `AquariumWrites` says |
| LiveState.Dashboard.ToggleDevice | WEB/script.js:407-415 | the fields change as `LiveModel.ToggleDevice` says |
| LiveState.Dashboard.ToggleMotor | WEB/script.js:421-443 | the fields change as `LiveModel.ToggleMotor` says; the result reports whether a command was sent |
| LiveState.Dashboard.UpdateButtonState | WEB/script.js:123-129 | the fields change as `LiveModel.UpdateButtonState` says |
| LiveState.Dashboard.UpdateMotorButtonState | WEB/script.js:450-462 | the fields change as `LiveModel.UpdateMotorButtonState` says |
| LiveState.Dashboard.ClickEmergency | WEB/script.js:535-541 | the flags change as `LiveModel.ClickEmergency` says, and stay exclusive |
| LiveState.Dashboard.ClickRecovery | WEB/script.js:552-558 | the flags change as `LiveModel.ClickRecovery` says, and stay exclusive |
| LiveState.Dashboard.OnConnect | WEB/script.js:211 | the status request is appended to the publishes |
| RecordsModel.DataTypeFromUrl | WEB/records.js:14-18 | the data type is water exactly when the `type` parameter is "water"; anything else, or no parameter, gives air |
| RecordsModel.FormatField | WEB/records.js:168-179 | a field shows 'N/A' exactly when it is falsy, 0 included; otherwise its coerced value with the column's places |
| RecordsModel.FormatRecord | WEB/records.js:141-184 | a record is dropped exactly when its timestamp is falsy; a kept row's date and time come from its timestamp, and its cells are the record's own fields, formatted: temperature, humidity, CO2 at 1, 1, 0 places for air; temperature, pH, EC at 1, 2, 0 for water |
| RecordsModel.ShapeRecords | WEB/records.js:138-184 | shaping never adds rows |
| RecordsModel.ShapeRecordsAppend | WEB/records.js:138-184 | shaping distributes over concatenation, so kept rows stay in input order |
| RecordsModel.ShapeRecordsSound | WEB/records.js:138-184 | every row is the formatting of some input record |
| RecordsModel.ShapeRecordsComplete | WEB/records.js:138-184 | every timestamped record's row is among the rows |
| RecordsModel.ShapeRecordsKeepsAll | WEB/records.js:138-184 | no record is dropped exactly when every record has a timestamp |
| RecordsModel.ZeroIsNotAvailable | WEB/records.js:168-170 | a reading of 0, or a missing one, shows 'N/A'; a reading of 7 shows 7 |
| RecordsModel.RowDecimals | WEB/records.js:167-180 | air columns have 1, 1 and 0 places; water columns have 1, 2 and 0 |
| RecordsModel.Reverse | WEB/records.js:229-231 | `reverse` keeps the length and puts element i at position n-1-i |
| RecordsModel.Limited | WEB/records.js:226 | `slice(0, 144)` is the first min(144, n) rows |
| RecordsModel.SeriesShape | WEB/records.js:226-257 | a series has min(144, n) points, labels aligned with data, and point i is row n-1-i (oldest first) |
| RecordsModel.ChartsShape | WEB/records.js:216-259 | air draws temperature, humidity and CO2; water draws temperature, pH and EC; each has the shape of `SeriesShape` |
| RecordsModel.ChartsFor | WEB/records.js:216-259 | no contract of its own: the three charts of the data type; its property is `ChartsShape` |
| RecordsModel.TickShown | WEB/records.js:318-322 | no contract of its own: index 0, the last index and the seven multiples of n/8; its property is `TickBounds` |
| RecordsModel.TickBounds | WEB/records.js:265-266 | at most nine labels are shown; every eighth-point lies on the axis; the first and last are always shown |
| RecordsModel.TickLabel | WEB/records.js:316-335 | an index off the tick rule gets an empty label; a shown index gets its shortened label |
| RecordsModel.ShortLabel | WEB/records.js:326-332 | no contract of its own: the first word, then hour and minute of the second; its properties are the three lemmas below |
| RecordsModel.ShortLabelUnspaced | WEB/records.js:326-332 | a label without a space is shown unchanged |
| RecordsModel.ShortLabelDropsSeconds | WEB/records.js:326-330 | "a h:m:s" is shortened to "ah:m" |
| RecordsModel.LocaleTimeExample | WEB/records.js:326-330 | "오전 10:00:00" is shown as "오전10:00" |
| RecordsModel.ShortLabelWithoutColon | WEB/records.js:326-330 | a second word without ':' prints "undefined" for the minute |
| RecordsModel.TotalPages | WEB/records.js:494 | the page count is the ceiling of n / 20 |
| RecordsModel.PageSlice | WEB/records.js:427-430 | page p is rows (p-1)*20 up to p*20, clamped at the end; at most 20 rows |
| RecordsModel.PageNonEmptyIffInRange | WEB/records.js:427-430 | page p has rows exactly when p is at most the page count |
| RecordsModel.TableFor | WEB/records.js:432-466 | an empty page shows the "no data" row; otherwise the table holds the page's rows, between 1 and 20 of them |
| RecordsModel.TableFlags | WEB/records.js:476-495 | no contract of its own: updateTable's disabled flags; its property is `FlagsAgree` |
| RecordsModel.ButtonFlags | WEB/records.js:512-534 | no contract of its own: updatePageButtons' disabled flags; its properties are `FlagsAgree` and `NavigationFollowsFlags` |
| RecordsModel.FlagsAgree | WEB/records.js:476-495 | updateTable's flags (next disabled when `end >= n`) equal updatePageButtons' flags (next disabled when `p >= total`) |
| RecordsModel.WindowStart | WEB/records.js:508 | the window starts at the first page of p's block of ten, so it holds p |
| RecordsModel.NumberButtons | WEB/records.js:523-528 | no contract of its own: the page-number links of the window; its property is `WindowFacts` |
| RecordsModel.WindowFacts | WEB/records.js:508-528 | the links run from the window's first page to min(first + 9, total), none when the first page is past total; all within 1..total; the active link is the one for p, which is drawn exactly when p ≤ total |
| RecordsModel.NavTarget | WEB/records.js:541-594 | Prev goes to p-1 iff p > 1; Next goes to p+1 iff p < total; the ten-page links go ±10 iff that stays in range; page-number link k, when drawn, goes to the number it shows |
| RecordsModel.NavigationStaysInRange | WEB/records.js:542-594 | from a page in 1..total, every link leads to a page in 1..total |
| RecordsModel.NavigationFollowsFlags | WEB/records.js:512-594 | each navigation link acts exactly when it is not drawn disabled |
| RecordsModel.LeadingDigits | WEB/records.js:424 | the leading digit run is a digit-only prefix, and the character after it, if any, is not a digit |
| RecordsModel.FirstDigitRun | WEB/records.js:424 | `/\d+/` matches nothing exactly when the text has no digit; otherwise the match is the maximal digit run that starts at the first digit |
| RecordsModel.PageFromInfo | WEB/records.js:424 | a page read from the page-info text is at least 1 (`|| 1`) |
| RecordsModel.CurrentPage | WEB/records.js:419-425 | without a page-info element the page is 1; a page read is at least 1 |
| RecordsModel.PageInfoRoundTrip | WEB/records.js:424-472 | writing "페이지 p" and reading it back gives p |
| RecordsState.InitialPage | WEB/records.js:1-11 | before loading, there are no rows, no charts and no drawn links |
| RecordsState.UpdatePageButtons | WEB/records.js:502-595 | without the container nothing changes; otherwise only the drawn links change, they capture (p, total), and their numbers and disabled flags are the window's links and the flags for (p, total) |
| RecordsState.UpdateTable | WEB/records.js:415-499 | throws exactly when the page-info text has no digit, and then changes nothing; it never changes the rows or the charts |
| RecordsState.LoadData | WEB/records.js:77-213 | a failed load shows the error row and changes nothing else; a non-empty answer replaces the rows with the shaped records |
| RecordsState.Navigate | WEB/records.js:542-594 | with no links drawn, or on a link whose handler declines (disabled or out of range), a click changes nothing and does not throw; a followed link with no page-info element throws and changes nothing |
| RecordsState.UpdateTableShowsPage | WEB/records.js:415-499 | the table holds the page read, the page-info text names it, and the flags and the drawn links are those for that page and the page count |
| RecordsState.UpdateTableIdempotent | WEB/records.js:415-499 | running updateTable a second time changes nothing |
| RecordsState.LoadDataKeepsButtonsDrawnFor | WEB/records.js:77-213 | after a load, the drawn links still match the page and count they were drawn for |
| RecordsState.NavigateKeepsButtonsDrawnFor | WEB/records.js:542-594 | after a click, the drawn links still match the page and count they were drawn for |
| RecordsState.PageStep | WEB/records.js:77-594 | no contract of its own: one API answer or one link click; its property is `ButtonsDrawnForOnEveryRun` |
| RecordsState.RunPage | WEB/records.js:77-595 | no contract of its own: a sequence of answers and clicks in order; its property is `ButtonsDrawnForOnEveryRun` |
| RecordsState.ButtonsDrawnForOnEveryRun | WEB/records.js:502-595 | along any sequence of loads and clicks, the drawn links match the page and count they were drawn for |
| RecordsState.NavigateShowsTarget | WEB/records.js:542-594 | a followed link leads to a page in 1..total, does not throw, and shows that page's rows and number |
| RecordsState.LoadDataShowsCurrentPage | WEB/records.js:186-212 | a load with rows left after shaping: when the page-info text has no digit, the error row is shown over the new rows and nothing else changes; otherwise the page it names is shown with its slice, its number, its link flags and links, and the data type's charts |
| RecordsState.FirstLoadShowsFirstPage | WEB/records.js:189-192 | the first load shows the first 20 shaped rows and the data type's charts |
| RecordsState.EmptyAnswerKeepsRows | WEB/records.js:114-132 | an empty answer shows "no data" and clears the charts, but keeps the rows of an earlier load |
| RecordsState.NothingProcessedClearsRows | WEB/records.js:138-201 | when no record has a timestamp, the rows are emptied and the "nothing processed" row is shown |
| RecordsView.RecordsPage.constructor | WEB/records.js:1-21 | the data type comes from the URL; nothing is loaded yet |
| RecordsView.RecordsPage.CreateCharts | WEB/records.js:216-259 | the charts become `ChartsFor(rows, dataType)`, and nothing else changes |
| RecordsView.RecordsPage.UpdatePageButtons | WEB/records.js:502-595 | the links drawn one by one in the loop are exactly `NumberButtons(p, total)` |
| RecordsView.RecordsPage.AppendRows | WEB/records.js:443-465 | one table row per record of the page, in the page's order |
| RecordsView.RecordsPage.UpdateTable | WEB/records.js:415-499 | the rows copied one by one make up the page's slice; the fields change as `RecordsState.UpdateTable` says |
| RecordsView.RecordsPage.LoadData | WEB/records.js:77-213 | the fields change as `RecordsState.LoadData` says |
| RecordsView.RecordsPage.Navigate | WEB/records.js:542-594 | the fields change as `RecordsState.Navigate` says |

## Left out

- The MQTT client's lifecycle is not modelled: connection options, subscription, reconnect, the `error`, `close` and `offline` events, and mqtt.js's queue of publishes made while offline. Only the request-status publish of the connect handler is kept. The `connected` flag of `toggleMotor` is a parameter.
- DOM rendering is not modelled: `updateSensorDisplay`, `updateLastUpdateTime`, `updateSystemStatusButtons`, the button `active` classes, the `showAlert` messages, titles, headers, chart visibility and view switching. The model keeps the values those functions display.
- `localStorage` writes are not modelled; they are output only and nothing reads them back.
- `fetchEnvironmentData` in `script.js`, called once at page load, is not modelled; it goes through HTTP, outside the message router.
- `fetch`, the HTTP status and `JSON.parse` in `loadData` are folded into `ApiResponse`. The text of the error message is not kept, only the `LoadFailed` row.
- A `null` entry inside the `records` array is not modelled; it makes `record.timestamp` throw, so the load fails. Records are maps here.
- The date and time strings come from the `clock` parameter. Locale formatting and the fall-back to the current time for an invalid timestamp are not modelled.
- Chart.js rendering is not modelled: colours, options and `destroy`. Only each chart's labels and data are kept.
- JSON numbers are integers here. Fractional readings, the rounding of `toFixed`, exponent notation for very large values, JSON arrays, and the string forms `Number` also accepts are not modelled: surrounding whitespace, "Infinity", decimals, exponents ("1e3"), and hexadecimal, binary and octal prefixes ("0x1F", "0b1", "0o7"). Such strings are NaN in the model.
- `updateButtonState` with a present button at an index outside 0..2 would write under the key `undefined`. The model ignores such an index, as `toggleDevice` does; the message handler only passes 0..2.
- `updateTable` toggles each navigation link only when that link exists. The model assumes all four exist.
- The page-number links are never disabled, so the model does not check the disabled class before following one.
- `WEB/raspberrypi_server.js` is not part of this model. It is the HTTP API that serves the records.

=== FILE: js_values.dfy ===
/**
 * Parsed JSON values as the dashboard's handlers receive them, and the
 * JavaScript coercions those handlers apply to them: `Number(x)`, `isNaN(x)`,
 * property access `data.name`, truthiness, `String.prototype.split`, and the
 * decimal text of a non-negative integer.
 *
 * JSON numbers are integers here: the sensors publish integer raw readings.
 */
module JsValues {

  datatype Option<+T> = None | Some(value: T)

  /** A value produced by JSON.parse (arrays are not part of this model). */
  datatype Json =
    | JNull
    | JBool(b: bool)
    | JNumber(n: int)
    | JString(s: string)
    | JObject(fields: map<string, Json>)

  // ---------------------------------------------------------------------
  // Decimal digits

  predicate IsDigit(c: char) {
    '0' <= c <= '9'
  }

  predicate AllDigits(s: string) {
    forall i :: 0 <= i < |s| ==> IsDigit(s[i])
  }

  /** The value of a run of decimal digits; leading zeros are allowed, as in parseInt. */
  function DigitsValue(s: string): nat
    requires AllDigits(s)
  {
    if s == [] then 0
    else 10 * DigitsValue(s[..|s| - 1]) + (s[|s| - 1] as int - '0' as int)
  }

  function DigitChar(d: nat): (c: char)
    requires d < 10
    ensures IsDigit(c) && c as int - '0' as int == d
  {
    (d + '0' as int) as char
  }

  /** The text of `${n}` for a non-negative integer n: its digits, no leading zero. */
  function NatText(n: nat): (s: string)
    ensures |s| >= 1 && AllDigits(s)
    ensures |s| > 1 ==> s[0] != '0'
  {
    if n < 10 then [DigitChar(n)] else NatText(n / 10) + [DigitChar(n % 10)]
  }

  /** Reading the digits of `${n}` gives n back. */
  lemma {:induction false} NatTextValue(n: nat)
    ensures DigitsValue(NatText(n)) == n
  {
    if n >= 10 {
      var s := NatText(n);
      assert s[..|s| - 1] == NatText(n / 10);
      NatTextValue(n / 10);
    }
  }

  // ---------------------------------------------------------------------
  // Number(x) and isNaN(x); None stands for NaN

  /**
   * Number(s) for a string: the empty string is 0, an optional sign followed by
   * decimal digits is that integer, anything else is NaN.
   */
  function StringToNumber(s: string): (r: Option<int>)
    ensures s == "" ==> r == Some(0)
    ensures AllDigits(s) ==> r == Some(DigitsValue(s))
    ensures |s| > 1 && s[0] == '-' && AllDigits(s[1..]) ==> r == Some(-(DigitsValue(s[1..]) as int))
    ensures |s| > 1 && s[0] == '+' && AllDigits(s[1..]) ==> r == Some(DigitsValue(s[1..]) as int)
    ensures r.Some? <==> s == "" || AllDigits(s) || (|s| > 1 && (s[0] == '-' || s[0] == '+') && AllDigits(s[1..]))
  {
    if s == "" then Some(0)
    else if AllDigits(s) then Some(DigitsValue(s))
    else if |s| > 1 && s[0] == '-' && AllDigits(s[1..]) then Some(-(DigitsValue(s[1..]) as int))
    else if |s| > 1 && s[0] == '+' && AllDigits(s[1..]) then Some(DigitsValue(s[1..]))
    else None
  }

  /** Number(j) for a JSON value. */
  function ToNumber(j: Json): (r: Option<int>)
    ensures j.JNumber? ==> r == Some(j.n)
    ensures j.JObject? ==> r.None?
    ensures j.JNull? ==> r == Some(0)
    ensures j.JBool? ==> r == Some(if j.b then 1 else 0)
    ensures j.JString? ==> r == StringToNumber(j.s)
  {
    match j
    case JNull => Some(0)
    case JBool(b) => Some(if b then 1 else 0)
    case JNumber(n) => Some(n)
    case JString(s) => StringToNumber(s)
    case JObject(_) => None
  }

  /** Number(v) where v may be `undefined` (None), which coerces to NaN. */
  function Coerce(v: Option<Json>): (r: Option<int>)
    ensures v.None? ==> r.None?
  {
    match v
    case None => None
    case Some(j) => ToNumber(j)
  }

  /** isNaN(v): true exactly when Number(v) is NaN. */
  predicate IsNaN(v: Option<Json>) {
    Coerce(v).None?
  }

  // ---------------------------------------------------------------------
  // Property access and truthiness

  /**
   * `data.name` for a non-null JSON value: the field of an object, or
   * `undefined` (None) when the object lacks it or the value is a primitive.
   * Reading a property of `null` throws a TypeError; callers test for JNull
   * before calling, and for JNull this function answers None.
   */
  function Property(data: Json, name: string): (r: Option<Json>)
    ensures r.Some? <==> data.JObject? && name in data.fields
    ensures r.Some? ==> r.value == data.fields[name]
  {
    match data
    case JObject(fields) => if name in fields then Some(fields[name]) else None
    case _ => None
  }

  /** JavaScript truthiness of a value that may be `undefined` (None). */
  predicate Truthy(v: Option<Json>) {
    match v
    case None => false
    case Some(JNull) => false
    case Some(JBool(b)) => b
    case Some(JNumber(n)) => n != 0
    case Some(JString(s)) => s != ""
    case Some(JObject(_)) => true
  }

  // ---------------------------------------------------------------------
  // String.prototype.split with a one-character separator

  /** s.split(sep): the pieces between separators, empty pieces kept; never empty. */
  function Split(s: string, sep: char): (parts: seq<string>)
    ensures |parts| >= 1
  {
    if s == [] then [""]
    else if s[0] == sep then [""] + Split(s[1..], sep)
    else
      var rest := Split(s[1..], sep);
      [[s[0]] + rest[0]] + rest[1..]
  }

  /** parts.join(sep), the inverse of Split. */
  function Join(parts: seq<string>, sep: char): string
    requires |parts| >= 1
  {
    if |parts| == 1 then parts[0] else parts[0] + [sep] + Join(parts[1..], sep)
  }

  /** Split cuts at every separator and loses nothing: joining the pieces gives s back. */
  lemma {:induction false} SplitJoin(s: string, sep: char)
    ensures Join(Split(s, sep), sep) == s
    ensures forall k :: 0 <= k < |Split(s, sep)| ==> sep !in Split(s, sep)[k]
  {
    if s != [] {
      SplitJoin(s[1..], sep);
      var rest := Split(s[1..], sep);
      if s[0] == sep {
        assert Split(s, sep)[1..] == rest;
      } else {
        var parts := Split(s, sep);
        assert parts[1..] == rest[1..];
        if |rest| == 1 {
          assert Join(parts, sep) == [s[0]] + rest[0];
        } else {
          assert Join(rest, sep) == rest[0] + [sep] + Join(rest[1..], sep);
          assert Join(parts, sep) == [s[0]] + rest[0] + [sep] + Join(rest[1..], sep);
        }
        assert s == [s[0]] + s[1..];
      }
    }
  }

  /** A string without the separator is a single piece. */
  lemma {:induction false} SplitWithoutSeparator(s: string, sep: char)
    requires sep !in s
    ensures Split(s, sep) == [s]
  {
    if s != [] {
      SplitWithoutSeparator(s[1..], sep);
      assert [s[0]] + s[1..] == s;
    }
  }

  /** Splitting a ++ [sep] ++ b: the last piece of a is followed by the pieces of b. */
  lemma {:induction false} SplitAtSeparator(a: string, b: string, sep: char)
    requires sep !in a
    ensures Split(a + [sep] + b, sep) == [a] + Split(b, sep)
  {
    if a == [] {
      assert a + [sep] + b == [sep] + b;
      assert ([sep] + b)[1..] == b;
    } else {
      var s := a + [sep] + b;
      assert s[1..] == a[1..] + [sep] + b;
      SplitAtSeparator(a[1..], b, sep);
      assert [a[0]] + a[1..] == a;
    }
  }
}

=== FILE: live_model.dfy ===
/**
 * The live state of the dashboard (WEB/script.js) as values, and every
 * transition of it as a function: the MQTT message router, the device and
 * motor toggles, the EMERGENCY / RECOVERY buttons and the connect handler's
 * status request. The class LiveState.Dashboard performs the same transitions
 * in place and is specified by these functions.
 */
module LiveModel {
  import opened JsValues
  import opened Normalizer

  // ---------------------------------------------------------------------
  // Topics

  const SCD41_TOPIC := "FarmSmart/SCDsensor/pub"
  const WATER_TEMP_TOPIC := "FarmSmart/watertemp/pub"
  const PH_TOPIC := "FarmSmart/ph/pub"
  const EC_TOPIC := "FarmSmart/ec/pub"
  const AQUARIUM_TOPIC := "FarmSmart/aquariumSensor/pub"
  const SYSTEM_STATUS_TOPIC := "FarmSmart/system/status"
  const REQUEST_STATUS_TOPIC := "FarmSmart/request/status"

  datatype Device = AquariumLight | PlantLight1 | PlantLight2 | UpMotor

  /** The topic a device listens on for commands. */
  function ControlTopic(d: Device): string {
    match d
    case AquariumLight => "FarmSmart/aquariumLight/sub"
    case PlantLight1 => "FarmSmart/plantLight1/sub"
    case PlantLight2 => "FarmSmart/plantLight2/sub"
    case UpMotor => "FarmSmart/upMotor/sub"
  }

  /** The topic a device reports its state on. */
  function StatusTopic(d: Device): string {
    match d
    case AquariumLight => "FarmSmart/aquariumLight/status"
    case PlantLight1 => "FarmSmart/plantLight1/status"
    case PlantLight2 => "FarmSmart/plantLight2/status"
    case UpMotor => "FarmSmart/upMotor/status"
  }

  /** The device whose status topic this is, if any (the lookup by topic in the handler). */
  function DeviceOfStatusTopic(topic: string): (r: Option<Device>)
    ensures r.Some? ==> StatusTopic(r.value) == topic
    ensures r.None? ==> forall d: Device :: StatusTopic(d) != topic
  {
    if topic == StatusTopic(AquariumLight) then Some(AquariumLight)
    else if topic == StatusTopic(PlantLight1) then Some(PlantLight1)
    else if topic == StatusTopic(PlantLight2) then Some(PlantLight2)
    else if topic == StatusTopic(UpMotor) then Some(UpMotor)
    else None
  }

  /** The message-handler's topics, each handled by its own branch. */
  predicate KnownTopic(topic: string) {
    topic in {SCD41_TOPIC, WATER_TEMP_TOPIC, PH_TOPIC, EC_TOPIC, AQUARIUM_TOPIC, SYSTEM_STATUS_TOPIC}
    || DeviceOfStatusTopic(topic).Some?
  }

  // ---------------------------------------------------------------------
  // State

  /** An inbound message: its text, and what JSON.parse made of it (or that it threw). */
  datatype Payload = Parsed(text: string, data: Json) | Unparseable(text: string)

  datatype Channel = Temperature | Humidity | Co2 | WaterTemp | Ph | Ec

  /** `sensorData`: six display strings, '--' until a reading arrives. */
  datatype SensorData = SensorData(
    temperature: Display, humidity: Display, co2: Display,
    waterTemp: Display, ph: Display, ec: Display)
  {
    function Get(c: Channel): Display {
      match c
      case Temperature => temperature
      case Humidity => humidity
      case Co2 => co2
      case WaterTemp => waterTemp
      case Ph => ph
      case Ec => ec
    }

    function Put(c: Channel, d: Display): (r: SensorData)
      ensures r.Get(c) == d
      ensures forall c' :: c' != c ==> r.Get(c') == Get(c')
    {
      match c
      case Temperature => this.(temperature := d)
      case Humidity => this.(humidity := d)
      case Co2 => this.(co2 := d)
      case WaterTemp => this.(waterTemp := d)
      case Ph => this.(ph := d)
      case Ec => this.(ec := d)
    }
  }

  /** `deviceStatus`: one on/off flag per device. */
  datatype DeviceStatus = DeviceStatus(aquariumLight: bool, plantLight1: bool, plantLight2: bool, upMotor: bool)
  {
    function Get(d: Device): bool {
      match d
      case AquariumLight => aquariumLight
      case PlantLight1 => plantLight1
      case PlantLight2 => plantLight2
      case UpMotor => upMotor
    }

    function Set(d: Device, on: bool): (r: DeviceStatus)
      ensures r.Get(d) == on
      ensures forall d' :: d' != d ==> r.Get(d') == Get(d')
    {
      match d
      case AquariumLight => this.(aquariumLight := on)
      case PlantLight1 => this.(plantLight1 := on)
      case PlantLight2 => this.(plantLight2 := on)
      case UpMotor => this.(upMotor := on)
    }
  }

  /** `systemStatus`: the two system flags. */
  datatype SystemStatus = SystemStatus(emergency: bool, recovery: bool)

  /** The flags' invariant: never EMERGENCY and RECOVERY at once. */
  predicate Exclusive(s: SystemStatus) {
    !(s.emergency && s.recovery)
  }

  /** An outbound MQTT publish. */
  datatype Publish = Publish(topic: string, payload: string, qos: nat)

  /** The whole live state: the three records and the publishes sent so far. */
  datatype View = View(sensors: SensorData, devices: DeviceStatus, system: SystemStatus, published: seq<Publish>)

  /** The state when the page loads. */
  function Initial(): (v: View)
    ensures Exclusive(v.system) && v.published == []
    ensures forall c :: v.sensors.Get(c) == Dashes
    ensures forall d :: !v.devices.Get(d)
  {
    View(SensorData(Dashes, Dashes, Dashes, Dashes, Dashes, Dashes),
         DeviceStatus(false, false, false, false),
         SystemStatus(false, false),
         [])
  }

  // ---------------------------------------------------------------------
  // The message router

  /**
   * The system-status branch. JSON.parse failing leaves the flags as they
   * were. Otherwise both flags are cleared and then the one named by
   * `status` is set; a `null` payload clears both and then throws on
   * reading `status`.
   */
  function SystemMessage(s: SystemStatus, p: Payload): (r: SystemStatus)
    ensures p.Unparseable? ==> r == s
    ensures p.Parsed? ==> Exclusive(r)
    ensures p.Parsed? ==> (r.emergency <==> Property(p.data, "status") == Some(JString("emergency")))
    ensures p.Parsed? ==> (r.recovery <==> Property(p.data, "status") == Some(JString("recovery")))
  {
    match p
    case Unparseable(_) => s
    case Parsed(_, data) =>
      var cleared := SystemStatus(false, false);
      if data.JNull? then cleared
      else
        var status := Property(data, "status");
        if status == Some(JString("emergency")) then cleared.(emergency := true)
        else if status == Some(JString("recovery")) then cleared.(recovery := true)
        else cleared
  }

  /** The state reached inside the `try` block, and whether it threw. */
  datatype Attempt = Attempt(view: View, threw: bool)

  /** Apply a single-channel decoder's verdict to a channel. */
  function Store(v: View, c: Channel, r: Decoded): (a: Attempt)
    ensures a.threw <==> r == Throws
    ensures a.view.devices == v.devices && a.view.system == v.system && a.view.published == v.published
    ensures forall c' :: c' != c ==> a.view.sensors.Get(c') == v.sensors.Get(c')
    ensures a.view.sensors.Get(c) == (if r.Shows? then r.d else v.sensors.Get(c))
  {
    match r
    case Throws => Attempt(v, true)
    case Unchanged => Attempt(v, false)
    case Shows(d) => Attempt(v.(sensors := v.sensors.Put(c, d)), false)
  }

  /**
   * The combined aquarium branch: water temperature, pH and EC are written in
   * turn, unscaled; the first field that is not a JSON number throws and
   * leaves the later channels untouched.
   */
  function AquariumWrites(v: View, data: Json): Attempt
  {
    if data.JNull? then Attempt(v, true)
    else match AquariumField(Property(data, "temperature"), 1)
      case None => Attempt(v, true)
      case Some(t) =>
        var v1 := v.(sensors := v.sensors.Put(WaterTemp, t));
        match AquariumField(Property(data, "ph"), 2)
        case None => Attempt(v1, true)
        case Some(ph) =>
          var v2 := v1.(sensors := v1.sensors.Put(Ph, ph));
          match AquariumField(Property(data, "ec"), 0)
          case None => Attempt(v2, true)
          case Some(ec) => Attempt(v2.(sensors := v2.sensors.Put(Ec, ec)), false)
  }

  /** A device-status message: "1" means on, any other text off. */
  function SetFromStatusText(v: View, d: Device, text: string): View {
    v.(devices := v.devices.Set(d, text == "1"))
  }

  /** The `try` block for a parsed, non-system message. */
  function TryHandle(v: View, topic: string, text: string, data: Json): Attempt {
    if topic == SCD41_TOPIC then
      match DecodeScd41(data)
      case None => Attempt(v, true)
      case Some(air) =>
        Attempt(v.(sensors := v.sensors.(temperature := air.temperature, humidity := air.humidity, co2 := air.co2)), false)
    else if topic == WATER_TEMP_TOPIC then Store(v, WaterTemp, DecodeWaterTemp(data))
    else if topic == PH_TOPIC then Store(v, Ph, DecodePh(data))
    else if topic == EC_TOPIC then Store(v, Ec, DecodeEc(data))
    else if topic == AQUARIUM_TOPIC then AquariumWrites(v, data)
    else match DeviceOfStatusTopic(topic)
      case Some(d) => Attempt(SetFromStatusText(v, d, text), false)
      case None => Attempt(v, false)
  }

  /** The `catch` block: only a device-status topic is handled, from the raw text. */
  function Caught(v: View, topic: string, text: string): View {
    match DeviceOfStatusTopic(topic)
    case Some(d) => SetFromStatusText(v, d, text)
    case None => v
  }

  /** The `message` handler: one inbound (topic, payload) pair. */
  function Route(v: View, topic: string, p: Payload): View {
    if topic == SYSTEM_STATUS_TOPIC then v.(system := SystemMessage(v.system, p))
    else match p
      case Unparseable(text) => Caught(v, topic, text)
      case Parsed(text, data) =>
        var a := TryHandle(v, topic, text, data);
        if a.threw then Caught(a.view, topic, text) else a.view
  }

  // ---------------------------------------------------------------------
  // User actions

  /** The three light buttons, by index; any other index names no device. */
  function LightAt(index: int): (r: Option<Device>)
    ensures r.Some? <==> 0 <= index < 3
    ensures r.Some? ==> r.value != UpMotor
  {
    if index == 0 then Some(AquariumLight)
    else if index == 1 then Some(PlantLight1)
    else if index == 2 then Some(PlantLight2)
    else None
  }

  function OnOff(on: bool): string {
    if on then "1" else "0"
  }

  /** toggleDevice: ask the light for the opposite of its current state; nothing local changes. */
  function ToggleDevice(v: View, index: int): (r: View)
    ensures r.sensors == v.sensors && r.devices == v.devices && r.system == v.system
    ensures LightAt(index).None? ==> r.published == v.published
    ensures LightAt(index).Some? ==>
      r.published == v.published + [Publish(ControlTopic(LightAt(index).value), OnOff(!v.devices.Get(LightAt(index).value)), 0)]
  {
    match LightAt(index)
    case None => v
    case Some(d) => v.(published := v.published + [Publish(ControlTopic(d), OnOff(!v.devices.Get(d)), 0)])
  }

  /**
   * toggleMotor: while disconnected nothing happens (the user sees an
   * alert). While connected the opposite of the motor's state is published
   * with QoS 1, the motor's own flag is left for the status echo, and
   * turning the motor on clears RECOVERY.
   */
  function ToggleMotor(v: View, connected: bool): (r: View)
    ensures !connected ==> r == v
    ensures r.sensors == v.sensors && r.devices == v.devices
    ensures r.system.emergency == v.system.emergency
    ensures connected ==> r.published == v.published + [Publish(ControlTopic(UpMotor), OnOff(!v.devices.upMotor), 1)]
    ensures connected ==> r.system.recovery == (v.system.recovery && v.devices.upMotor)
  {
    if !connected then v
    else
      var on := !v.devices.upMotor;
      var sent := v.(published := v.published + [Publish(ControlTopic(UpMotor), OnOff(on), 1)]);
      if on && v.system.recovery then sent.(system := sent.system.(recovery := false)) else sent
  }

  /** The EMERGENCY button: flip it; if it is now on, RECOVERY goes off. */
  function ClickEmergency(s: SystemStatus): (r: SystemStatus)
    ensures r.emergency == !s.emergency
    ensures r.recovery == (s.recovery && !r.emergency)
    ensures Exclusive(r)
  {
    var e := !s.emergency;
    SystemStatus(e, if e then false else s.recovery)
  }

  /** The RECOVERY button: flip it; if it is now on, EMERGENCY goes off. */
  function ClickRecovery(s: SystemStatus): (r: SystemStatus)
    ensures r.recovery == !s.recovery
    ensures r.emergency == (s.emergency && !r.recovery)
    ensures Exclusive(r)
  {
    var rec := !s.recovery;
    SystemStatus(if rec then false else s.emergency, rec)
  }

  /**
   * updateButtonState, state part: when the button at `index` exists and
   * names a light, that light's flag takes `isOn`. (A button beyond the three
   * lights writes a key that is none of the four devices.)
   */
  function UpdateButtonState(v: View, index: int, isOn: bool, buttonPresent: bool): (r: View)
    ensures r.sensors == v.sensors && r.system == v.system && r.published == v.published
    ensures buttonPresent && LightAt(index).Some? ==> r.devices == v.devices.Set(LightAt(index).value, isOn)
    ensures !(buttonPresent && LightAt(index).Some?) ==> r == v
  {
    if buttonPresent && LightAt(index).Some? then v.(devices := v.devices.Set(LightAt(index).value, isOn)) else v
  }

  /** updateMotorButtonState, state part: button 0, when present, sets the motor's flag. */
  function UpdateMotorButtonState(v: View, index: int, isOn: bool, buttonPresent: bool): (r: View)
    ensures r.sensors == v.sensors && r.system == v.system && r.published == v.published
    ensures buttonPresent && index == 0 ==> r.devices == v.devices.Set(UpMotor, isOn)
    ensures !(buttonPresent && index == 0) ==> r == v
  {
    if buttonPresent && index == 0 then v.(devices := v.devices.(upMotor := isOn)) else v
  }

  /** The connect handler's request for every device's current status. */
  function Connect(v: View): (r: View)
    ensures r.sensors == v.sensors && r.devices == v.devices && r.system == v.system
    ensures |r.published| == |v.published| + 1 && r.published[..|v.published|] == v.published
    ensures r.published[|v.published|] == Publish(REQUEST_STATUS_TOPIC, "all", 0)
  {
    v.(published := v.published + [Publish(REQUEST_STATUS_TOPIC, "all", 0)])
  }

  // ---------------------------------------------------------------------
  // Event sequences

  datatype Event =
    | Message(topic: string, payload: Payload)
    | DeviceClick(index: int)
    | MotorClick(connected: bool)
    | EmergencyClick
    | RecoveryClick
    | Connected

  function Step(v: View, e: Event): View {
    match e
    case Message(topic, p) => Route(v, topic, p)
    case DeviceClick(i) => ToggleDevice(v, i)
    case MotorClick(c) => ToggleMotor(v, c)
    case EmergencyClick => v.(system := ClickEmergency(v.system))
    case RecoveryClick => v.(system := ClickRecovery(v.system))
    case Connected => Connect(v)
  }

  function Run(v: View, es: seq<Event>): View
    decreases |es|
  {
    if es == [] then v else Run(Step(v, es[0]), es[1..])
  }

  // ---------------------------------------------------------------------
  // Properties of the router

  /** Every topic string of the handler is distinct from every other. */
  lemma TopicsDistinct(d: Device)
    ensures StatusTopic(d) !in {SCD41_TOPIC, WATER_TEMP_TOPIC, PH_TOPIC, EC_TOPIC, AQUARIUM_TOPIC, SYSTEM_STATUS_TOPIC}
  {
  }

  /** A system-status message changes the flags and nothing else. */
  lemma SystemMessageTouchesOnlyFlags(v: View, p: Payload)
    ensures Route(v, SYSTEM_STATUS_TOPIC, p).sensors == v.sensors
    ensures Route(v, SYSTEM_STATUS_TOPIC, p).devices == v.devices
    ensures Route(v, SYSTEM_STATUS_TOPIC, p).published == v.published
    ensures Route(v, SYSTEM_STATUS_TOPIC, p).system == SystemMessage(v.system, p)
  {
  }

  /**
   * A device-status message sets that device to (text == "1") whether or not
   * its payload parses as JSON, and leaves everything else as it was.
   */
  lemma DeviceStatusMessage(v: View, d: Device, p: Payload)
    ensures Route(v, StatusTopic(d), p) == v.(devices := v.devices.Set(d, p.text == "1"))
  {
    TopicsDistinct(d);
    assert DeviceOfStatusTopic(StatusTopic(d)) == Some(d);
  }

  /** A message on a topic the handler does not know changes nothing. */
  lemma UnknownTopicIgnored(v: View, topic: string, p: Payload)
    requires !KnownTopic(topic)
    ensures Route(v, topic, p) == v
  {
  }

  /** A `null` payload on a sensor topic throws before any write: nothing changes. */
  lemma NullSensorPayloadIgnored(v: View, topic: string, text: string)
    requires topic in {SCD41_TOPIC, WATER_TEMP_TOPIC, PH_TOPIC, EC_TOPIC, AQUARIUM_TOPIC}
    ensures Route(v, topic, Parsed(text, JNull)) == v
  {
  }

  /** An unparseable payload on a sensor topic changes nothing. */
  lemma UnparseableSensorPayloadIgnored(v: View, topic: string, text: string)
    requires topic in {SCD41_TOPIC, WATER_TEMP_TOPIC, PH_TOPIC, EC_TOPIC, AQUARIUM_TOPIC}
    ensures Route(v, topic, Unparseable(text)) == v
  {
  }

  /**
   * An SCD41 message sets each of temperature, humidity and CO2 from its own
   * field alone ('--' when that field is not numeric) and nothing else.
   */
  lemma Scd41SetsEachChannel(v: View, text: string, data: Json)
    requires !data.JNull?
    ensures var r := Route(v, SCD41_TOPIC, Parsed(text, data));
      && r.sensors.temperature == NumericOrDashes(Property(data, "temperature"), 1)
      && r.sensors.humidity == NumericOrDashes(Property(data, "humidity"), 1)
      && r.sensors.co2 == NumericOrDashes(Property(data, "co2"), 0)
      && r.sensors.waterTemp == v.sensors.waterTemp && r.sensors.ph == v.sensors.ph && r.sensors.ec == v.sensors.ec
      && r.devices == v.devices && r.system == v.system && r.published == v.published
  {
  }

  /** A parsed water-temperature, pH or EC message writes its own channel at most. */
  lemma SingleChannelMessage(v: View, text: string, data: Json, c: Channel)
    requires c in {WaterTemp, Ph, Ec}
    ensures var topic := if c == WaterTemp then WATER_TEMP_TOPIC else if c == Ph then PH_TOPIC else EC_TOPIC;
      var r := Route(v, topic, Parsed(text, data));
      var dec := if c == WaterTemp then DecodeWaterTemp(data) else if c == Ph then DecodePh(data) else DecodeEc(data);
      && r.devices == v.devices && r.system == v.system && r.published == v.published
      && (forall c' :: c' != c ==> r.sensors.Get(c') == v.sensors.Get(c'))
      && r.sensors.Get(c) == (if dec.Shows? then dec.d else v.sensors.Get(c))
  {
    var topic := if c == WaterTemp then WATER_TEMP_TOPIC else if c == Ph then PH_TOPIC else EC_TOPIC;
    var dec := if c == WaterTemp then DecodeWaterTemp(data) else if c == Ph then DecodePh(data) else DecodeEc(data);
    assert TryHandle(v, topic, text, data) == Store(v, c, dec);
    assert DeviceOfStatusTopic(topic).None?;
  }

  /**
   * The aquarium message writes water temperature, pH and EC in that order
   * and stops at the first field that is not a JSON number: a numeric
   * temperature with a non-numeric pH updates the water temperature only.
   */
  lemma AquariumStopsAtFirstBadField(v: View, text: string, fields: map<string, Json>)
    requires "temperature" in fields && fields["temperature"].JNumber?
    requires !("ph" in fields && fields["ph"].JNumber?)
    ensures var r := Route(v, AQUARIUM_TOPIC, Parsed(text, JObject(fields)));
      && r.sensors == v.sensors.(waterTemp := Decimal(fields["temperature"].n * 10, 1))
      && r.devices == v.devices && r.system == v.system && r.published == v.published
  {
  }

  /** A well-formed aquarium message writes all three water channels, unscaled. */
  lemma AquariumWritesAll(v: View, text: string, t: int, ph: int, ec: int)
    ensures var data := JObject(map["temperature" := JNumber(t), "ph" := JNumber(ph), "ec" := JNumber(ec)]);
      Route(v, AQUARIUM_TOPIC, Parsed(text, data)).sensors
        == v.sensors.(waterTemp := Decimal(t * 10, 1), ph := Decimal(ph * 100, 2), ec := Decimal(ec, 0))
  {
  }

  /** Every message keeps the flags exclusive; a parsed system-status message makes them so. */
  lemma RouteKeepsExclusive(v: View, topic: string, p: Payload)
    requires Exclusive(v.system)
    ensures Exclusive(Route(v, topic, p).system)
  {
    if topic != SYSTEM_STATUS_TOPIC {
      match p
      case Unparseable(text) =>
      case Parsed(text, data) =>
        var a := TryHandle(v, topic, text, data);
        assert a.view.system == v.system by {
          if topic == AQUARIUM_TOPIC {
            AquariumKeepsFlags(v, data);
          }
        }
    }
  }

  lemma AquariumKeepsFlags(v: View, data: Json)
    ensures AquariumWrites(v, data).view.system == v.system
    ensures AquariumWrites(v, data).view.devices == v.devices
    ensures AquariumWrites(v, data).view.published == v.published
  {
  }

  // ---------------------------------------------------------------------
  // Properties of the user actions

  /** Toggling a light and then receiving its status echo of what was published flips that light. */
  lemma ToggleThenEchoFlips(v: View, index: int, p: Payload)
    requires LightAt(index).Some?
    requires p.text == ToggleDevice(v, index).published[|v.published|].payload
    ensures var d := LightAt(index).value;
      var r := Route(ToggleDevice(v, index), StatusTopic(d), p);
      && r.devices.Get(d) == !v.devices.Get(d)
      && (forall d' :: d' != d ==> r.devices.Get(d') == v.devices.Get(d'))
  {
    var d := LightAt(index).value;
    DeviceStatusMessage(ToggleDevice(v, index), d, p);
  }

  /**
   * Turning the motor on while connected, then receiving its status echo:
   * the motor is on, RECOVERY is off and EMERGENCY is as it was.
   */
  lemma MotorOnThenEcho(v: View, p: Payload)
    requires !v.devices.upMotor && p.text == "1"
    ensures var r := Route(ToggleMotor(v, true), StatusTopic(UpMotor), p);
      && r.devices.upMotor && !r.system.recovery && r.system.emergency == v.system.emergency
  {
    DeviceStatusMessage(ToggleMotor(v, true), UpMotor, p);
  }

  /** Pressing EMERGENCY and then RECOVERY leaves RECOVERY alone on, from any exclusive flags. */
  lemma EmergencyThenRecovery(s: SystemStatus)
    requires Exclusive(s)
    ensures ClickRecovery(ClickEmergency(s)) == SystemStatus(false, true)
  {
  }

  /** Every step keeps the flags exclusive. */
  lemma StepKeepsExclusive(v: View, e: Event)
    requires Exclusive(v.system)
    ensures Exclusive(Step(v, e).system)
  {
    match e
    case Message(topic, p) => RouteKeepsExclusive(v, topic, p);
    case DeviceClick(i) =>
    case MotorClick(c) =>
    case EmergencyClick =>
    case RecoveryClick =>
    case Connected =>
  }

  /** From the page's initial state, no sequence of events ever makes EMERGENCY and RECOVERY both on. */
  lemma {:induction false} ExclusiveOnEveryRun(v: View, es: seq<Event>)
    requires Exclusive(v.system)
    ensures Exclusive(Run(v, es).system)
    decreases |es|
  {
    if es != [] {
      StepKeepsExclusive(v, es[0]);
      ExclusiveOnEveryRun(Step(v, es[0]), es[1..]);
    }
  }

  /** The number of status requests among the publishes. */
  function RequestCount(ps: seq<Publish>): nat {
    if ps == [] then 0
    else RequestCount(ps[..|ps| - 1]) + (if ps[|ps| - 1].topic == REQUEST_STATUS_TOPIC then 1 else 0)
  }

  /** The number of connects in an event sequence. */
  function ConnectCount(es: seq<Event>): nat {
    if es == [] then 0 else (if es[0].Connected? then 1 else 0) + ConnectCount(es[1..])
  }

  lemma RequestCountAppend(ps: seq<Publish>, x: Publish)
    ensures RequestCount(ps + [x]) == RequestCount(ps) + (if x.topic == REQUEST_STATUS_TOPIC then 1 else 0)
  {
    assert (ps + [x])[..|ps|] == ps;
  }

  /** A message never publishes. */
  lemma RoutePublishesNothing(v: View, topic: string, p: Payload)
    ensures Route(v, topic, p).published == v.published
  {
    match p
    case Unparseable(_) =>
    case Parsed(_, data) => AquariumKeepsFlags(v, data);
  }

  /** Only a connect publishes a status request; a click publishes a command instead. */
  lemma StepRequests(v: View, e: Event)
    ensures RequestCount(Step(v, e).published) == RequestCount(v.published) + (if e.Connected? then 1 else 0)
  {
    match e
    case Message(topic, p) => RoutePublishesNothing(v, topic, p);
    case DeviceClick(i) =>
      if LightAt(i).Some? {
        var d := LightAt(i).value;
        RequestCountAppend(v.published, Publish(ControlTopic(d), OnOff(!v.devices.Get(d)), 0));
      }
    case MotorClick(c) =>
      if c {
        RequestCountAppend(v.published, Publish(ControlTopic(UpMotor), OnOff(!v.devices.upMotor), 1));
      }
    case EmergencyClick =>
    case RecoveryClick =>
    case Connected =>
      RequestCountAppend(v.published, Publish(REQUEST_STATUS_TOPIC, "all", 0));
  }

  /** Along any sequence of events, the status requests published are one per connect. */
  lemma {:induction false} RequestsOnePerConnect(v: View, es: seq<Event>)
    ensures RequestCount(Run(v, es).published) == RequestCount(v.published) + ConnectCount(es)
    decreases |es|
  {
    if es != [] {
      StepRequests(v, es[0]);
      RequestsOnePerConnect(Step(v, es[0]), es[1..]);
    }
  }

  /** Sensor readings never change the devices, the flags or the publishes. */
  lemma SensorTopicsTouchOnlySensors(v: View, topic: string, p: Payload)
    requires topic in {SCD41_TOPIC, WATER_TEMP_TOPIC, PH_TOPIC, EC_TOPIC, AQUARIUM_TOPIC}
    ensures Route(v, topic, p).devices == v.devices
    ensures Route(v, topic, p).system == v.system
    ensures Route(v, topic, p).published == v.published
  {
    assert DeviceOfStatusTopic(topic).None?;
    if p.Parsed? && topic == AQUARIUM_TOPIC {
      AquariumKeepsFlags(v, p.data);
    }
  }
}

=== FILE: live_state.dfy ===
/**
 * The dashboard's module-level records (WEB/script.js), kept as the fields
 * of one object that the message handler and the click handlers update
 * field by field. Each method is specified by the transition function of
 * LiveModel it performs, and keeps the flags' invariant.
 */
module LiveState {
  import opened JsValues
  import opened Normalizer
  import opened LiveModel

  class Dashboard {
    var sensorData: SensorData
    var deviceStatus: DeviceStatus
    var systemStatus: SystemStatus
    /** Every publish sent so far, oldest first. */
    var published: seq<Publish>

    ghost predicate Valid()
      reads this
    {
      Exclusive(systemStatus)
    }

    function Snapshot(): View
      reads this
    {
      View(sensorData, deviceStatus, systemStatus, published)
    }

    /** Page load: every sensor '--', every device and flag off. */
    constructor ()
      ensures Valid() && Snapshot() == Initial()
    {
      sensorData := SensorData(Dashes, Dashes, Dashes, Dashes, Dashes, Dashes);
      deviceStatus := DeviceStatus(false, false, false, false);
      systemStatus := SystemStatus(false, false);
      published := [];
    }

    /** A device-status message: the device is on exactly when the text is "1". */
    method SetFromText(d: Device, text: string)
      modifies this
      ensures Snapshot() == SetFromStatusText(old(Snapshot()), d, text)
    {
      deviceStatus := deviceStatus.Set(d, text == "1");
    }

    /** Write one channel as a single-channel decoder says; reports whether it threw. */
    method StoreReading(c: Channel, r: Decoded) returns (threw: bool)
      modifies this
      ensures threw == Store(old(Snapshot()), c, r).threw
      ensures Snapshot() == Store(old(Snapshot()), c, r).view
    {
      match r {
        case Throws => threw := true;
        case Unchanged => threw := false;
        case Shows(d) =>
          sensorData := sensorData.Put(c, d);
          threw := false;
      }
    }

    /** The `message` handler for one inbound (topic, payload) pair. */
    method OnMessage(topic: string, p: Payload)
      requires Valid()
      modifies this
      ensures Valid()
      ensures Snapshot() == Route(old(Snapshot()), topic, p)
    {
      if topic == SYSTEM_STATUS_TOPIC {
        match p {
          case Unparseable(_) =>
          case Parsed(_, data) =>
            systemStatus := systemStatus.(emergency := false);
            systemStatus := systemStatus.(recovery := false);
            if !data.JNull? {
              var status := Property(data, "status");
              if status == Some(JString("emergency")) {
                systemStatus := systemStatus.(emergency := true);
              } else if status == Some(JString("recovery")) {
                systemStatus := systemStatus.(recovery := true);
              }
            }
        }
        return;
      }
      ghost var before := Snapshot();
      var threw := false;
      match p {
        case Unparseable(_) =>
          threw := true;
        case Parsed(text, data) =>
          if topic == SCD41_TOPIC {
            if data.JNull? {
              threw := true;
            } else {
              sensorData := sensorData.(temperature := NumericOrDashes(Property(data, "temperature"), 1));
              sensorData := sensorData.(humidity := NumericOrDashes(Property(data, "humidity"), 1));
              sensorData := sensorData.(co2 := NumericOrDashes(Property(data, "co2"), 0));
            }
          } else if topic == WATER_TEMP_TOPIC {
            threw := StoreReading(WaterTemp, DecodeWaterTemp(data));
          } else if topic == PH_TOPIC {
            threw := StoreReading(Ph, DecodePh(data));
          } else if topic == EC_TOPIC {
            threw := StoreReading(Ec, DecodeEc(data));
          } else if topic == AQUARIUM_TOPIC {
            threw := AquariumMessage(data);
          } else {
            var d := DeviceOfStatusTopic(topic);
            if d.Some? {
              SetFromText(d.value, text);
            }
          }
          assert threw == TryHandle(before, topic, text, data).threw;
          assert Snapshot() == TryHandle(before, topic, text, data).view;
      }
      if threw {
        var d := DeviceOfStatusTopic(topic);
        if d.Some? {
          SetFromText(d.value, p.text);
        }
      }
      RouteKeepsExclusive(before, topic, p);
    }

    /** The combined aquarium branch: three writes in turn, stopping at the first that throws. */
    method AquariumMessage(data: Json) returns (threw: bool)
      modifies this
      ensures threw == AquariumWrites(old(Snapshot()), data).threw
      ensures Snapshot() == AquariumWrites(old(Snapshot()), data).view
    {
      if data.JNull? {
        return true;
      }
      var t := AquariumField(Property(data, "temperature"), 1);
      if t.None? {
        return true;
      }
      sensorData := sensorData.(waterTemp := t.value);
      var ph := AquariumField(Property(data, "ph"), 2);
      if ph.None? {
        return true;
      }
      sensorData := sensorData.(ph := ph.value);
      var ec := AquariumField(Property(data, "ec"), 0);
      if ec.None? {
        return true;
      }
      sensorData := sensorData.(ec := ec.value);
      threw := false;
    }

    /** toggleDevice(index): publish the opposite of the light's state; nothing local changes. */
    method ToggleDevice(index: int)
      requires Valid()
      modifies this
      ensures Valid()
      ensures Snapshot() == LiveModel.ToggleDevice(old(Snapshot()), index)
    {
      var d := LightAt(index);
      if d.Some? {
        var newState := !deviceStatus.Get(d.value);
        published := published + [Publish(ControlTopic(d.value), OnOff(newState), 0)];
      }
    }

    /**
     * toggleMotor: `sent` is false, and nothing changes, while disconnected;
     * otherwise the command is published and turning the motor on clears
     * RECOVERY.
     */
    method ToggleMotor(connected: bool) returns (sent: bool)
      requires Valid()
      modifies this
      ensures Valid()
      ensures sent == connected
      ensures Snapshot() == LiveModel.ToggleMotor(old(Snapshot()), connected)
    {
      if !connected {
        return false;
      }
      var newState := !deviceStatus.upMotor;
      published := published + [Publish(ControlTopic(UpMotor), OnOff(newState), 1)];
      if newState && systemStatus.recovery {
        systemStatus := systemStatus.(recovery := false);
      }
      sent := true;
    }

    /** updateButtonState, state part. */
    method UpdateButtonState(index: int, isOn: bool, buttonPresent: bool)
      requires Valid()
      modifies this
      ensures Valid()
      ensures Snapshot() == LiveModel.UpdateButtonState(old(Snapshot()), index, isOn, buttonPresent)
    {
      if buttonPresent {
        var d := LightAt(index);
        if d.Some? {
          deviceStatus := deviceStatus.Set(d.value, isOn);
        }
      }
    }

    /** updateMotorButtonState, state part. */
    method UpdateMotorButtonState(index: int, isOn: bool, buttonPresent: bool)
      requires Valid()
      modifies this
      ensures Valid()
      ensures Snapshot() == LiveModel.UpdateMotorButtonState(old(Snapshot()), index, isOn, buttonPresent)
    {
      if buttonPresent && index == 0 {
        deviceStatus := deviceStatus.(upMotor := isOn);
      }
    }

    /** The EMERGENCY button's click handler. */
    method ClickEmergency()
      requires Valid()
      modifies this
      ensures Valid()
      ensures Snapshot() == old(Snapshot()).(system := LiveModel.ClickEmergency(old(systemStatus)))
    {
      systemStatus := systemStatus.(emergency := !systemStatus.emergency);
      if systemStatus.emergency {
        systemStatus := systemStatus.(recovery := false);
      }
    }

    /** The RECOVERY button's click handler. */
    method ClickRecovery()
      requires Valid()
      modifies this
      ensures Valid()
      ensures Snapshot() == old(Snapshot()).(system := LiveModel.ClickRecovery(old(systemStatus)))
    {
      systemStatus := systemStatus.(recovery := !systemStatus.recovery);
      if systemStatus.recovery {
        systemStatus := systemStatus.(emergency := false);
      }
    }

    /** The connect handler's state part: request every device's status. */
    method OnConnect()
      requires Valid()
      modifies this
      ensures Valid()
      ensures Snapshot() == Connect(old(Snapshot()))
    {
      published := published + [Publish(REQUEST_STATUS_TOPIC, "all", 0)];
    }
  }
}

=== FILE: normalizer.dfy ===
/**
 * The unit normalizer of the live dashboard (WEB/script.js): how each sensor
 * message's parsed payload becomes the text shown for a channel.
 *
 * A shown number is a fixed-point decimal `Decimal(mantissa, decimals)`,
 * standing for mantissa / 10^decimals printed with `decimals` places. Raw
 * readings are integers, so every division the handlers perform (by 10 for
 * water temperature, by 100 for pH) is exact in this form.
 *
 * Display and ToFixed are also used by the records page (WEB/records.js),
 * whose table cells print numbers the same way and 'N/A' for a missing field;
 * they live here so that both pages share one definition.
 */
module Normalizer {
  import opened JsValues

  /** A display string of the dashboard or of the records table. */
  datatype Display =
    | Dashes                                  // the '--' placeholder
    | NotAvailable                            // 'N/A' in the records table
    | NaNText                                 // what toFixed prints for NaN
    | Decimal(mantissa: int, decimals: nat)   // mantissa / 10^decimals

  function Pow10(k: nat): (r: nat)
    ensures r >= 1
  {
    if k == 0 then 1 else 10 * Pow10(k - 1)
  }

  /** The number a decimal display stands for. */
  ghost function Value(d: Display): real
    requires d.Decimal?
  {
    d.mantissa as real / Pow10(d.decimals) as real
  }

  /** Number(x).toFixed(k) for a coerced value x (None is NaN). */
  function ToFixed(x: Option<int>, k: nat): (d: Display)
    ensures x.None? <==> d == NaNText
    ensures x.Some? ==> d.Decimal? && d.decimals == k && Value(d) == x.value as real
  {
    match x
    case None => NaNText
    case Some(n) =>
      var d := Decimal(n * Pow10(k), k);
      assert Value(d) == (n * Pow10(k)) as real / Pow10(k) as real == n as real;
      d
  }

  /** `!isNaN(v) ? Number(v).toFixed(k) : '--'`, the guard used for every sensor field. */
  function NumericOrDashes(v: Option<Json>, k: nat): (d: Display)
    ensures d == Dashes <==> IsNaN(v)
    ensures !IsNaN(v) ==> d.Decimal? && d.decimals == k && Value(d) == Coerce(v).value as real
  {
    if IsNaN(v) then Dashes else ToFixed(Coerce(v), k)
  }

  // ---------------------------------------------------------------------
  // The scaled channels: water temperature (÷10, 1 place) and pH (÷100, 2 places)

  /**
   * The handler's local `tempValue` / `phValue` after the field chain: a
   * number, `null` (a present field that is not numeric), or still
   * `undefined` (no field applied and the payload is not a bare number).
   */
  datatype Resolved = Number(n: int) | NullValue | UndefinedValue

  /**
   * The field-priority chain for a non-null payload: `value` first, then the
   * channel's own field, then the payload itself as a bare number.
   */
  function Resolve(data: Json, channel: string): Resolved
  {
    var v := Property(data, "value");
    if v.Some? then
      (if IsNaN(v) then NullValue else Number(Coerce(v).value))
    else
      var c := Property(data, channel);
      if c.Some? then
        (if IsNaN(c) then NullValue else Number(Coerce(c).value))
      else if ToNumber(data).Some? then Number(ToNumber(data).value)
      else UndefinedValue
  }

  /**
   * Dividing by 10^k and printing k places: a number n shows as n / 10^k
   * exactly; `null` shows '--'; `undefined` divides to NaN and shows "NaN".
   */
  function ScaledDisplay(r: Resolved, k: nat): (d: Display)
    ensures r.Number? <==> d.Decimal?
    ensures r.Number? ==> d.decimals == k && Value(d) == r.n as real / Pow10(k) as real
    ensures r.NullValue? <==> d == Dashes
    ensures r.UndefinedValue? <==> d == NaNText
  {
    match r
    case Number(n) => Decimal(n, k)
    case NullValue => Dashes
    case UndefinedValue => NaNText
  }

  /**
   * What a single-channel handler does to its channel: throw before writing
   * (the payload is `null`, whose properties cannot be read), leave it
   * unchanged, or show a display.
   */
  datatype Decoded = Throws | Unchanged | Shows(d: Display)

  function DecodeWaterTemp(data: Json): (r: Decoded)
    ensures r == Throws <==> data.JNull?
    ensures r != Unchanged
  {
    if data.JNull? then Throws else Shows(ScaledDisplay(Resolve(data, "temperature"), 1))
  }

  function DecodePh(data: Json): (r: Decoded)
    ensures r == Throws <==> data.JNull?
    ensures r != Unchanged
  {
    if data.JNull? then Throws else Shows(ScaledDisplay(Resolve(data, "ph"), 2))
  }

  /**
   * The EC handler: the same field chain with no scaling and 0 places, but a
   * present non-numeric field shows '--' and, when no field applies and the
   * payload is not a bare number, the channel keeps its old value.
   */
  function DecodeEc(data: Json): (r: Decoded)
    ensures r == Throws <==> data.JNull?
  {
    if data.JNull? then Throws
    else
      var v := Property(data, "value");
      if v.Some? then Shows(NumericOrDashes(v, 0))
      else
        var c := Property(data, "ec");
        if c.Some? then Shows(NumericOrDashes(c, 0))
        else if ToNumber(data).Some? then Shows(ToFixed(ToNumber(data), 0))
        else Unchanged
  }

  /** The three readings of one SCD41 message. */
  datatype AirReading = AirReading(temperature: Display, humidity: Display, co2: Display)

  /**
   * The SCD41 handler: each field is judged on its own; None when the payload
   * is `null` (nothing is written before the TypeError).
   */
  function DecodeScd41(data: Json): (r: Option<AirReading>)
    ensures r.None? <==> data.JNull?
    ensures r.Some? ==> r.value.temperature != NaNText && r.value.humidity != NaNText && r.value.co2 != NaNText
  {
    if data.JNull? then None
    else Some(AirReading(
      NumericOrDashes(Property(data, "temperature"), 1),
      NumericOrDashes(Property(data, "humidity"), 1),
      NumericOrDashes(Property(data, "co2"), 0)))
  }

  /**
   * `field.toFixed(k)` in the combined aquarium handler: only a JSON number
   * has toFixed; for anything else (missing, null, a string) it throws (None).
   * No scaling and no '--' fallback on this path.
   */
  function AquariumField(v: Option<Json>, k: nat): (r: Option<Display>)
    ensures r.Some? <==> v.Some? && v.value.JNumber?
    ensures r.Some? ==> r.value.Decimal? && Value(r.value) == v.value.n as real
  {
    if v.Some? && v.value.JNumber? then Some(ToFixed(Some(v.value.n), k)) else None
  }

  // ---------------------------------------------------------------------
  // Properties of the decoders

  /**
   * Field priority of the water-temperature handler, stated on the payload's
   * shape: `value` decides when present, else `temperature`, else a bare
   * number; a present non-numeric field shows '--'.
   */
  lemma WaterTempFieldOrder(data: Json)
    ensures data.JObject? && "value" in data.fields ==>
      DecodeWaterTemp(data) == Shows(
        if IsNaN(Some(data.fields["value"])) then Dashes
        else Decimal(Coerce(Some(data.fields["value"])).value, 1))
    ensures data.JObject? && "value" !in data.fields && "temperature" in data.fields ==>
      DecodeWaterTemp(data) == Shows(
        if IsNaN(Some(data.fields["temperature"])) then Dashes
        else Decimal(Coerce(Some(data.fields["temperature"])).value, 1))
    ensures data.JNumber? ==> DecodeWaterTemp(data) == Shows(Decimal(data.n, 1))
  {
  }

  /** Field priority of the pH handler: `value`, then `ph`, then a bare number, at 2 places. */
  lemma PhFieldOrder(data: Json)
    ensures data.JObject? && "value" in data.fields ==>
      DecodePh(data) == Shows(
        if IsNaN(Some(data.fields["value"])) then Dashes
        else Decimal(Coerce(Some(data.fields["value"])).value, 2))
    ensures data.JObject? && "value" !in data.fields && "ph" in data.fields ==>
      DecodePh(data) == Shows(
        if IsNaN(Some(data.fields["ph"])) then Dashes
        else Decimal(Coerce(Some(data.fields["ph"])).value, 2))
    ensures data.JNumber? ==> DecodePh(data) == Shows(Decimal(data.n, 2))
  {
  }

  /**
   * A present `value` field makes the channel's own field irrelevant: any
   * `temperature` (or `ph`) field may be added, changed or removed.
   */
  lemma ValueFieldShadowsChannel(fields: map<string, Json>, channel: string, other: Json)
    requires "value" in fields && channel != "value"
    ensures Resolve(JObject(fields[channel := other]), channel) == Resolve(JObject(fields), channel)
    ensures Resolve(JObject(fields - {channel}), channel) == Resolve(JObject(fields), channel)
  {
    assert fields[channel := other]["value"] == fields["value"];
    assert (fields - {channel})["value"] == fields["value"];
  }

  /**
   * The meaning of a scaled channel: whenever the water-temperature (pH)
   * handler shows a number, it is the resolved raw reading divided by 10
   * (100), shown with 1 (2) places.
   */
  lemma ScaledChannelsDivide(data: Json)
    requires !data.JNull? && Resolve(data, "temperature").Number?
    ensures DecodeWaterTemp(data).d.Decimal? && DecodeWaterTemp(data).d.decimals == 1
    ensures Value(DecodeWaterTemp(data).d) * 10.0 == Resolve(data, "temperature").n as real
  {
  }

  /**
   * Water temperature shows "NaN", not '--', when the payload is an object
   * with neither `value` nor `temperature`: the handler's variable stays
   * `undefined`, which passes its `!== null` test.
   */
  lemma WaterTempWithoutFieldShowsNaN(fields: map<string, Json>)
    requires "value" !in fields && "temperature" !in fields
    ensures DecodeWaterTemp(JObject(fields)) == Shows(NaNText)
  {
  }

  /**
   * Field priority of the EC handler: `value`, then `ec`, then a bare
   * number, unscaled and with 0 places; a present non-numeric field shows
   * '--', but a bare primitive that is not numeric leaves the channel as it
   * was (where water temperature and pH would show "NaN").
   */
  lemma EcFieldOrder(data: Json)
    ensures data.JObject? && "value" in data.fields ==>
      DecodeEc(data) == Shows(
        if IsNaN(Some(data.fields["value"])) then Dashes
        else Decimal(Coerce(Some(data.fields["value"])).value, 0))
    ensures data.JObject? && "value" !in data.fields && "ec" in data.fields ==>
      DecodeEc(data) == Shows(
        if IsNaN(Some(data.fields["ec"])) then Dashes
        else Decimal(Coerce(Some(data.fields["ec"])).value, 0))
    ensures data.JNumber? ==> DecodeEc(data) == Shows(Decimal(data.n, 0))
    ensures data.JString? && StringToNumber(data.s).None? ==> DecodeEc(data) == Unchanged
    ensures data.JString? && StringToNumber(data.s).None? ==> DecodeWaterTemp(data) == Shows(NaNText)
  {
  }

  /** EC with no `value`, no `ec` and no bare number leaves the channel as it was. */
  lemma EcWithoutReadingIsUnchanged(data: Json)
    requires data.JObject? && "value" !in data.fields && "ec" !in data.fields
    ensures DecodeEc(data) == Unchanged
  {
  }
}

=== FILE: records_model.dfy ===
/**
 * The records page (WEB/records.js) as values: the data type chosen from the
 * URL, how API records become table rows, the chart series, the x-axis tick
 * rule and label shortening, and the arithmetic of pagination and of the
 * page-number window. The class RecordsView.RecordsPage uses these.
 */
module RecordsModel {
  import opened JsValues
  import opened Normalizer

  function Min(a: int, b: int): int { if a <= b then a else b }
  function Max(a: int, b: int): int { if a >= b then a else b }

  // ---------------------------------------------------------------------
  // Data type

  datatype DataType = Air | Water

  /** getDataTypeFromURL: the `type` query parameter (None when absent). */
  function DataTypeFromUrl(typeParam: Option<string>): (t: DataType)
    ensures t == Water <==> typeParam == Some("water")
  {
    if typeParam == Some("water") then Water else Air
  }

  // ---------------------------------------------------------------------
  // Records -> rows

  /** One record of the API's `records` array. */
  type RawRecord = map<string, Json>

  /** What the browser's Date makes of a timestamp: locale date and time text. */
  datatype Stamp = Stamp(date: string, time: string)

  /**
   * A table row. The last two columns are humidity and CO2 for air records,
   * pH and EC for water records.
   */
  datatype Row = Row(date: string, time: string, temperature: Display, humidityOrPh: Display, co2OrEc: Display)

  function Field(r: RawRecord, name: string): Option<Json> {
    Property(JObject(r), name)
  }

  /** `v ? Number(v).toFixed(k) : 'N/A'`. */
  function FormatField(v: Option<Json>, k: nat): (d: Display)
    ensures d == NotAvailable <==> !Truthy(v)
    ensures Truthy(v) ==> d == ToFixed(Coerce(v), k)
  {
    if Truthy(v) then ToFixed(Coerce(v), k) else NotAvailable
  }

  /** Places for the three value columns: 1/1/0 for air, 1/2/0 for water. */
  function ColumnDecimals(t: DataType): (nat, nat, nat) {
    match t
    case Air => (1, 1, 0)
    case Water => (1, 2, 0)
  }

  /**
   * The per-record callback of loadData: None (later filtered out) when the
   * timestamp is falsy; otherwise the formatted row. `clock` is the Date
   * formatting of the timestamp, which falls back to the current time for an
   * invalid one.
   */
  function FormatRecord(r: RawRecord, t: DataType, clock: Json -> Stamp): (row: Option<Row>)
    ensures row.None? <==> !Truthy(Field(r, "timestamp"))
    ensures row.Some? ==> var stamp := clock(Field(r, "timestamp").value);
      && row.value.date == stamp.date && row.value.time == stamp.time
      && row.value.temperature == FormatField(Field(r, "temperature"), 1)
    ensures row.Some? && t == Air ==>
      && row.value.humidityOrPh == FormatField(Field(r, "humidity"), 1)
      && row.value.co2OrEc == FormatField(Field(r, "co2"), 0)
    ensures row.Some? && t == Water ==>
      && row.value.humidityOrPh == FormatField(Field(r, "ph"), 2)
      && row.value.co2OrEc == FormatField(Field(r, "ec"), 0)
  {
    var ts := Field(r, "timestamp");
    if !Truthy(ts) then None
    else
      var stamp := clock(ts.value);
      var (k1, k2, k3) := ColumnDecimals(t);
      match t
      case Air =>
        Some(Row(stamp.date, stamp.time, FormatField(Field(r, "temperature"), k1),
                 FormatField(Field(r, "humidity"), k2), FormatField(Field(r, "co2"), k3)))
      case Water =>
        Some(Row(stamp.date, stamp.time, FormatField(Field(r, "temperature"), k1),
                 FormatField(Field(r, "ph"), k2), FormatField(Field(r, "ec"), k3)))
  }

  /** `records.map(FormatRecord).filter(r => r !== null)`. */
  function ShapeRecords(rs: seq<RawRecord>, t: DataType, clock: Json -> Stamp): (rows: seq<Row>)
    ensures |rows| <= |rs|
  {
    if rs == [] then []
    else
      var rest := ShapeRecords(rs[1..], t, clock);
      match FormatRecord(rs[0], t, clock)
      case None => rest
      case Some(row) => [row] + rest
  }

  /** Shaping distributes over concatenation, so the kept records stay in their input order. */
  lemma {:induction false} ShapeRecordsAppend(a: seq<RawRecord>, b: seq<RawRecord>, t: DataType, clock: Json -> Stamp)
    ensures ShapeRecords(a + b, t, clock) == ShapeRecords(a, t, clock) + ShapeRecords(b, t, clock)
  {
    if a == [] {
      assert a + b == b;
    } else {
      assert (a + b)[0] == a[0];
      assert (a + b)[1..] == a[1..] + b;
      ShapeRecordsAppend(a[1..], b, t, clock);
      var left, right := ShapeRecords(a[1..], t, clock), ShapeRecords(b, t, clock);
      match FormatRecord(a[0], t, clock)
      case None =>
      case Some(row) =>
        assert [row] + left + right == [row] + (left + right);
    }
  }

  /** Every row comes from some input record that has a timestamp. */
  lemma {:induction false} ShapeRecordsSound(rs: seq<RawRecord>, t: DataType, clock: Json -> Stamp, k: int)
    requires 0 <= k < |ShapeRecords(rs, t, clock)|
    ensures exists i :: 0 <= i < |rs| && FormatRecord(rs[i], t, clock) == Some(ShapeRecords(rs, t, clock)[k])
  {
    var rest := ShapeRecords(rs[1..], t, clock);
    match FormatRecord(rs[0], t, clock)
    case None =>
      assert ShapeRecords(rs, t, clock) == rest;
      ShapeRecordsSound(rs[1..], t, clock, k);
      var i :| 0 <= i < |rs[1..]| && FormatRecord(rs[1..][i], t, clock) == Some(rest[k]);
      assert rs[1..][i] == rs[i + 1];
    case Some(row) =>
      assert ShapeRecords(rs, t, clock) == [row] + rest;
      if k > 0 {
        ShapeRecordsSound(rs[1..], t, clock, k - 1);
        var i :| 0 <= i < |rs[1..]| && FormatRecord(rs[1..][i], t, clock) == Some(rest[k - 1]);
        assert rs[1..][i] == rs[i + 1];
      }
  }

  /** Every record with a timestamp gives a row. */
  lemma {:induction false} ShapeRecordsComplete(rs: seq<RawRecord>, t: DataType, clock: Json -> Stamp, i: int)
    requires 0 <= i < |rs| && Truthy(Field(rs[i], "timestamp"))
    ensures FormatRecord(rs[i], t, clock).value in ShapeRecords(rs, t, clock)
  {
    if i > 0 {
      ShapeRecordsComplete(rs[1..], t, clock, i - 1);
    }
  }

  /** Nothing is dropped exactly when every record has a timestamp. */
  lemma {:induction false} ShapeRecordsKeepsAll(rs: seq<RawRecord>, t: DataType, clock: Json -> Stamp)
    ensures |ShapeRecords(rs, t, clock)| == |rs| <==> forall i :: 0 <= i < |rs| ==> Truthy(Field(rs[i], "timestamp"))
  {
    if rs != [] {
      ShapeRecordsKeepsAll(rs[1..], t, clock);
      if Truthy(Field(rs[0], "timestamp")) {
        forall i | 1 <= i < |rs| ensures rs[i] == rs[1..][i - 1] { }
      }
    }
  }

  /** A falsy reading, 0 included, is shown as 'N/A', never as "0.0". */
  lemma ZeroIsNotAvailable(k: nat)
    ensures FormatField(Some(JNumber(0)), k) == NotAvailable
    ensures FormatField(None, k) == NotAvailable
    ensures FormatField(Some(JNumber(7)), k) == Decimal(7 * Pow10(k), k)
  {
  }

  /** Each column of a row is 'N/A', "NaN" or a number with the column's places. */
  lemma RowDecimals(r: RawRecord, t: DataType, clock: Json -> Stamp)
    requires FormatRecord(r, t, clock).Some?
    ensures var row := FormatRecord(r, t, clock).value;
      && (row.temperature.Decimal? ==> row.temperature.decimals == 1)
      && (row.humidityOrPh.Decimal? ==> row.humidityOrPh.decimals == (if t == Air then 1 else 2))
      && (row.co2OrEc.Decimal? ==> row.co2OrEc.decimals == 0)
  {
  }

  // ---------------------------------------------------------------------
  // Chart series

  const CHART_LIMIT := 144

  function Reverse<T>(s: seq<T>): (r: seq<T>)
    ensures |r| == |s|
    ensures forall i :: 0 <= i < |s| ==> r[i] == s[|s| - 1 - i]
  {
    if s == [] then [] else Reverse(s[1..]) + [s[0]]
  }

  /** `recordsData.slice(0, 144)`. */
  function Limited(rows: seq<Row>): (l: seq<Row>)
    ensures |l| == Min(CHART_LIMIT, |rows|)
    ensures l == rows[..|l|]
  {
    rows[..Min(CHART_LIMIT, |rows|)]
  }

  datatype Column = TemperatureColumn | HumidityOrPhColumn | Co2OrEcColumn

  function Cell(r: Row, c: Column): Display {
    match c
    case TemperatureColumn => r.temperature
    case HumidityOrPhColumn => r.humidityOrPh
    case Co2OrEcColumn => r.co2OrEc
  }

  /** The x-axis labels: the times of the limited rows, reversed (oldest first). */
  function Labels(rows: seq<Row>): seq<string> {
    var l := Limited(rows);
    Reverse(seq(|l|, i requires 0 <= i < |l| => l[i].time))
  }

  /** One data series: a column of the limited rows, reversed. */
  function Series(rows: seq<Row>, c: Column): seq<Display> {
    var l := Limited(rows);
    Reverse(seq(|l|, i requires 0 <= i < |l| => Cell(l[i], c)))
  }

  datatype Chart = Chart(labels: seq<string>, data: seq<Display>)

  /** The five chart slots; None is a destroyed (or never created) chart. */
  datatype Charts = Charts(temperature: Option<Chart>, humidity: Option<Chart>, co2: Option<Chart>,
                           ph: Option<Chart>, tds: Option<Chart>)

  function NoCharts(): Charts {
    Charts(None, None, None, None, None)
  }

  /** createCharts: air draws temperature, humidity and CO2; water draws temperature, pH and EC. */
  function ChartsFor(rows: seq<Row>, t: DataType): Charts {
    var labels := Labels(rows);
    var temperature := Some(Chart(labels, Series(rows, TemperatureColumn)));
    match t
    case Air =>
      Charts(temperature, Some(Chart(labels, Series(rows, HumidityOrPhColumn))),
             Some(Chart(labels, Series(rows, Co2OrEcColumn))), None, None)
    case Water =>
      Charts(temperature, None, None, Some(Chart(labels, Series(rows, HumidityOrPhColumn))),
             Some(Chart(labels, Series(rows, Co2OrEcColumn))))
  }

  /** A chart drawn from column c: at most 144 points, newest of them last, labels and data aligned. */
  ghost predicate ChartOf(rows: seq<Row>, c: Column, chart: Chart) {
    var n := Min(CHART_LIMIT, |rows|);
    && |chart.labels| == |chart.data| == n
    && forall i :: 0 <= i < n ==>
         chart.labels[i] == rows[n - 1 - i].time && chart.data[i] == Cell(rows[n - 1 - i], c)
  }

  lemma SeriesShape(rows: seq<Row>, c: Column)
    ensures ChartOf(rows, c, Chart(Labels(rows), Series(rows, c)))
  {
  }

  /** Every chart createCharts draws has the shape ChartOf describes, and the data type picks the slots. */
  lemma ChartsShape(rows: seq<Row>, t: DataType)
    ensures var cs := ChartsFor(rows, t);
      && ChartOf(rows, TemperatureColumn, cs.temperature.value)
      && (t == Air ==> cs.humidity.Some? && cs.co2.Some? && cs.ph.None? && cs.tds.None?
                       && ChartOf(rows, HumidityOrPhColumn, cs.humidity.value)
                       && ChartOf(rows, Co2OrEcColumn, cs.co2.value))
      && (t == Water ==> cs.humidity.None? && cs.co2.None? && cs.ph.Some? && cs.tds.Some?
                         && ChartOf(rows, HumidityOrPhColumn, cs.ph.value)
                         && ChartOf(rows, Co2OrEcColumn, cs.tds.value))
  {
    SeriesShape(rows, TemperatureColumn);
    SeriesShape(rows, HumidityOrPhColumn);
    SeriesShape(rows, Co2OrEcColumn);
  }

  // ---------------------------------------------------------------------
  // X-axis ticks

  /** The tick callback's test: the first and last index and the seven eighth-points. */
  predicate TickShown(index: int, n: nat) {
    var segment := n / 8;
    index == 0 || index == n - 1 || index == segment || index == segment * 2 ||
    index == segment * 3 || index == segment * 4 || index == segment * 5 ||
    index == segment * 6 || index == segment * 7
  }

  function TickCandidates(n: nat): seq<int> {
    var s := n / 8;
    [0, n - 1, s, s * 2, s * 3, s * 4, s * 5, s * 6, s * 7]
  }

  lemma {:induction false} CardOfSeqSet(s: seq<int>)
    ensures |set x | x in s| <= |s|
  {
    if s != [] {
      CardOfSeqSet(s[1..]);
      assert (set x | x in s) == (set x | x in s[1..]) + {s[0]};
    }
  }

  /**
   * At most nine of the n labels are shown, every eighth-point lies within
   * the axis, and the first and last labels are always shown.
   */
  lemma TickBounds(n: nat)
    ensures |set i | 0 <= i < n && TickShown(i, n)| <= 9
    ensures n > 0 ==> forall k :: 0 <= k < |TickCandidates(n)| ==> 0 <= TickCandidates(n)[k] < n
    ensures n > 0 ==> TickShown(0, n) && TickShown(n - 1, n)
  {
    var shown := set i | 0 <= i < n && TickShown(i, n);
    var cands := set x | x in TickCandidates(n);
    assert shown <= cands;
    CardOfSeqSet(TickCandidates(n));
    SubsetCard(shown, cands);
  }

  lemma SubsetCard(a: set<int>, b: set<int>)
    requires a <= b
    ensures |a| <= |b|
  {
    assert b == a + (b - a);
  }

  /** "오전 10:00:00" becomes "오전10:00": the first word, then hour and minute of the second. */
  function ShortLabel(text: string): string {
    var parts := Split(text, ' ');
    if |parts| > 1 then
      var hm := Split(parts[1], ':');
      parts[0] + hm[0] + ":" + (if |hm| > 1 then hm[1] else "undefined")
    else text
  }

  /** The tick callback: a shortened label at a shown index, otherwise nothing. */
  function TickLabel(labels: seq<string>, index: int): (r: string)
    requires 0 <= index < |labels|
    ensures !TickShown(index, |labels|) ==> r == ""
    ensures TickShown(index, |labels|) ==> r == ShortLabel(labels[index])
  {
    if TickShown(index, |labels|) then ShortLabel(labels[index]) else ""
  }

  /** A label without a space is shown as it is. */
  lemma ShortLabelUnspaced(text: string)
    requires ' ' !in text
    ensures ShortLabel(text) == text
  {
    SplitWithoutSeparator(text, ' ');
  }

  /** A label "a h:m:rest" is shortened to "ah:m". */
  lemma ShortLabelDropsSeconds(a: string, h: string, m: string, rest: string)
    requires ' ' !in a && ' ' !in h && ' ' !in m && ' ' !in rest
    requires ':' !in h && ':' !in m
    ensures ShortLabel(a + " " + h + ":" + m + ":" + rest) == a + h + ":" + m
  {
    var minutes := m + [':'] + rest;
    var tail := h + [':'] + minutes;
    var full := a + [' '] + tail;
    assert a + " " + h + ":" + m + ":" + rest == full;
    assert ' ' !in minutes;
    assert ' ' !in tail;
    SplitAtSeparator(a, tail, ' ');
    SplitWithoutSeparator(tail, ' ');
    assert Split(full, ' ') == [a, tail];
    SplitAtSeparator(h, minutes, ':');
    SplitAtSeparator(m, rest, ':');
    var hm := Split(tail, ':');
    assert hm == [h, m] + Split(rest, ':');
    assert ShortLabel(full) == a + hm[0] + ":" + hm[1];
  }

  lemma LocaleTimeExample()
    ensures ShortLabel("오전 10:00:00") == "오전10:00"
  {
    var a, h, m := "오전", "10", "00";
    assert ' ' !in a && ' ' !in h && ':' !in h && ' ' !in m && ':' !in m;
    var full := a + " " + h + ":" + m + ":" + m;
    assert full == "오전 10:00:00";
    ShortLabelDropsSeconds(a, h, m, m);
    assert ShortLabel(full) == a + h + ":" + m;
    assert a + h + ":" + m == "오전10:00";
  }

  /** A second word without ':' leaves the minute undefined: "a b" becomes "ab:undefined". */
  lemma ShortLabelWithoutColon(a: string, b: string)
    requires ' ' !in a && ' ' !in b && ':' !in b
    ensures ShortLabel(a + " " + b) == a + b + ":undefined"
  {
    assert a + " " + b == a + [' '] + b;
    SplitAtSeparator(a, b, ' ');
    SplitWithoutSeparator(b, ' ');
    SplitWithoutSeparator(b, ':');
  }

  // ---------------------------------------------------------------------
  // Pagination

  const ROWS_PER_PAGE := 20
  const WINDOW_SIZE := 10

  /** Math.ceil(n / 20). */
  function TotalPages(n: nat): (total: nat)
    ensures total * ROWS_PER_PAGE >= n
    ensures n > 0 ==> (total - 1) * ROWS_PER_PAGE < n
    ensures n == 0 <==> total == 0
  {
    (n + ROWS_PER_PAGE - 1) / ROWS_PER_PAGE
  }

  /** `recordsData.slice((p-1)*20, (p-1)*20 + 20)`, with slice's clamping at the end. */
  function PageSlice(rows: seq<Row>, p: nat): (s: seq<Row>)
    requires p >= 1
    ensures |s| <= ROWS_PER_PAGE
    ensures (p - 1) * ROWS_PER_PAGE <= |rows| ==> s == rows[(p - 1) * ROWS_PER_PAGE .. Min(p * ROWS_PER_PAGE, |rows|)]
    ensures (p - 1) * ROWS_PER_PAGE >= |rows| ==> s == []
  {
    var start := Min((p - 1) * ROWS_PER_PAGE, |rows|);
    var end := Min((p - 1) * ROWS_PER_PAGE + ROWS_PER_PAGE, |rows|);
    rows[start..end]
  }

  /** A page has rows exactly when it is one of the TotalPages pages. */
  lemma PageNonEmptyIffInRange(rows: seq<Row>, p: nat)
    requires p >= 1
    ensures |PageSlice(rows, p)| > 0 <==> p <= TotalPages(|rows|)
  {
  }

  /**
   * The table body: the page's initial markup, the "no data" row, loadData's
   * "nothing processed" and load-error rows, or the rows of a page.
   */
  datatype TableBody = Placeholder | NoData | NothingProcessed | LoadFailed | Rows(rows: seq<Row>)

  function TableFor(rows: seq<Row>, p: nat): (b: TableBody)
    requires p >= 1
    ensures b.NoData? || b.Rows?
    ensures b == NoData <==> PageSlice(rows, p) == []
    ensures b.Rows? ==> b.rows == PageSlice(rows, p) && 1 <= |b.rows| <= ROWS_PER_PAGE
  {
    var s := PageSlice(rows, p);
    if s == [] then NoData else Rows(s)
  }

  /** The disabled state of the four navigation links (true: disabled). */
  datatype NavFlags = NavFlags(prev10: bool, prev: bool, next: bool, next10: bool)

  /** updateTable's rule: next is disabled when the page's end reaches the row count. */
  function TableFlags(p: nat, n: nat): NavFlags
    requires p >= 1
  {
    var end := (p - 1) * ROWS_PER_PAGE + ROWS_PER_PAGE;
    NavFlags(p <= 10, p == 1, end >= n, p + 10 > TotalPages(n))
  }

  /** updatePageButtons's rule: next is disabled on or past the last page. */
  function ButtonFlags(p: nat, total: nat): NavFlags {
    NavFlags(p <= 10, p == 1, p >= total, p + 10 > total)
  }

  /** The two rules agree, so the links look the same whichever function drew them last. */
  lemma FlagsAgree(p: nat, n: nat)
    requires p >= 1
    ensures TableFlags(p, n) == ButtonFlags(p, TotalPages(n))
  {
    var total := TotalPages(n);
    var end := (p - 1) * ROWS_PER_PAGE + ROWS_PER_PAGE;
    assert end == p * ROWS_PER_PAGE;
    if p >= total {
      assert p * ROWS_PER_PAGE >= total * ROWS_PER_PAGE;
    } else {
      assert p <= total - 1;
      assert p * ROWS_PER_PAGE <= (total - 1) * ROWS_PER_PAGE;
    }
  }

  /** The first page number of the block of ten holding p. */
  function WindowStart(p: nat): (start: nat)
    requires p >= 1
    ensures start >= 1 && (start - 1) % WINDOW_SIZE == 0
    ensures start <= p < start + WINDOW_SIZE
  {
    Max(1, (p - 1) / WINDOW_SIZE * WINDOW_SIZE + 1)
  }

  function WindowEnd(p: nat, total: nat): int
    requires p >= 1
  {
    Min(WindowStart(p) + WINDOW_SIZE - 1, total)
  }

  datatype PageButton = PageButton(number: nat, active: bool)

  /** The page-number links: start..end, the current one active. */
  function NumberButtons(p: nat, total: nat): seq<PageButton>
    requires p >= 1
  {
    var start := WindowStart(p);
    var end := WindowEnd(p, total);
    var count := if end >= start then end - start + 1 else 0;
    seq(count, k requires 0 <= k < count => PageButton(start + k, start + k == p))
  }

  /**
   * At most ten consecutive links, all within 1..total; the current page has
   * one, the only active link, exactly when it is at most total.
   */
  lemma WindowFacts(p: nat, total: nat)
    requires p >= 1
    ensures var bs := NumberButtons(p, total);
      && |bs| <= WINDOW_SIZE
      && |bs| == (if WindowStart(p) <= total then Min(WindowStart(p) + WINDOW_SIZE - 1, total) - WindowStart(p) + 1 else 0)
      && (forall k :: 0 <= k < |bs| ==> bs[k].number == WindowStart(p) + k && 1 <= bs[k].number <= total)
      && (forall k :: 0 <= k < |bs| ==> (bs[k].active <==> bs[k].number == p))
      && ((exists k :: 0 <= k < |bs| && bs[k].number == p) <==> p <= total)
  {
    var bs := NumberButtons(p, total);
    var start := WindowStart(p);
    if p <= total {
      assert start <= p <= WindowEnd(p, total);
      assert bs[p - start].number == p;
    }
  }

  /** A click on one of the links. */
  datatype NavAction = Prev10 | Prev | Next | Next10 | PageNumber(k: nat)

  /**
   * The page a click leads to, if any: each handler checks that its link is
   * not disabled and then its own bound; a page-number link goes to its own
   * number.
   */
  function NavTarget(a: NavAction, p: nat, total: nat, numbers: seq<PageButton>): (r: Option<nat>)
    ensures a == Prev ==> (r.Some? <==> p > 1) && (r.Some? ==> r.value == p - 1)
    ensures a == Next ==> (r.Some? <==> p < total) && (r.Some? ==> r.value == p + 1)
    ensures a == Prev10 ==> (r.Some? <==> p > 10) && (r.Some? ==> r.value == p - 10)
    ensures a == Next10 ==> (r.Some? <==> p + 10 <= total) && (r.Some? ==> r.value == p + 10)
    ensures a.PageNumber? ==> (r.Some? <==> a.k < |numbers|) && (r.Some? ==> r.value == numbers[a.k].number)
  {
    var flags := ButtonFlags(p, total);
    match a
    case Prev => if !flags.prev && p > 1 then Some(p - 1) else None
    case Next => if !flags.next && p < total then Some(p + 1) else None
    case Prev10 => if !flags.prev10 && p > 10 then Some(Max(1, p - 10)) else None
    case Next10 => if !flags.next10 && p + 10 <= total then Some(p + 10) else None
    case PageNumber(k) => if k < |numbers| then Some(numbers[k].number) else None
  }

  /** From a page in 1..total, every link leads to a page in 1..total. */
  lemma NavigationStaysInRange(a: NavAction, p: nat, total: nat)
    requires 1 <= p <= total
    ensures var r := NavTarget(a, p, total, NumberButtons(p, total));
      r.Some? ==> 1 <= r.value <= total
  {
    WindowFacts(p, total);
  }

  /** A link is followed exactly when it is not drawn disabled (for p >= 1). */
  lemma NavigationFollowsFlags(p: nat, total: nat, numbers: seq<PageButton>)
    requires p >= 1
    ensures NavTarget(Prev, p, total, numbers).Some? <==> !ButtonFlags(p, total).prev
    ensures NavTarget(Next, p, total, numbers).Some? <==> !ButtonFlags(p, total).next
    ensures NavTarget(Prev10, p, total, numbers).Some? <==> !ButtonFlags(p, total).prev10
    ensures NavTarget(Next10, p, total, numbers).Some? <==> !ButtonFlags(p, total).next10
  {
  }

  // ---------------------------------------------------------------------
  // The current page, kept as the text of the page-info element

  const PAGE_INFO_PREFIX := "페이지 "

  /** `페이지 ${p}`. */
  function PageInfoText(p: nat): string {
    PAGE_INFO_PREFIX + NatText(p)
  }

  /** The longest run of digits at the start of s. */
  function LeadingDigits(s: string): (r: string)
    ensures AllDigits(r) && |r| <= |s| && r == s[..|r|]
    ensures |r| < |s| ==> !IsDigit(s[|r|])
  {
    if s != [] && IsDigit(s[0]) then [s[0]] + LeadingDigits(s[1..]) else []
  }

  /** `s.match(/\d+/)`: the first run of digits, None when s has no digit. */
  function FirstDigitRun(s: string): (r: Option<string>)
    ensures r.Some? ==> |r.value| >= 1 && AllDigits(r.value)
    ensures r.None? <==> forall i :: 0 <= i < |s| ==> !IsDigit(s[i])
    ensures r.Some? ==> exists i :: 0 <= i < |s| && IsDigit(s[i]) && (forall j :: 0 <= j < i ==> !IsDigit(s[j]))
                                    && r.value == LeadingDigits(s[i..])
  {
    if s == [] then None
    else if IsDigit(s[0]) then Some(LeadingDigits(s))
    else FirstDigitRun(s[1..])
  }

  /**
   * The page updateTable reads: `parseInt(text.match(/\d+/)[0]) || 1`, so 0
   * reads as 1; None when the text has no digit (the match is null and the
   * read throws).
   */
  function PageFromInfo(text: string): (r: Option<nat>)
    ensures r.Some? ==> r.value >= 1
  {
    match FirstDigitRun(text)
    case None => None
    case Some(run) => var v := DigitsValue(run); Some(if v == 0 then 1 else v)
  }

  /** The page updateTable starts from: 1 without a page-info element. */
  function CurrentPage(info: Option<string>): (r: Option<nat>)
    ensures info.None? ==> r == Some(1)
    ensures r.Some? ==> r.value >= 1
  {
    match info
    case None => Some(1)
    case Some(text) => PageFromInfo(text)
  }

  lemma {:induction false} LeadingDigitsOfDigits(s: string)
    requires AllDigits(s)
    ensures LeadingDigits(s) == s
  {
    if s != [] {
      LeadingDigitsOfDigits(s[1..]);
    }
  }

  lemma {:induction false} FirstDigitRunSkips(pre: string, s: string)
    requires forall i :: 0 <= i < |pre| ==> !IsDigit(pre[i])
    ensures FirstDigitRun(pre + s) == FirstDigitRun(s)
  {
    if pre == [] {
      assert pre + s == s;
    } else {
      assert (pre + s)[0] == pre[0];
      assert (pre + s)[1..] == pre[1..] + s;
      FirstDigitRunSkips(pre[1..], s);
    }
  }

  /** A digit string, matched on its own, is matched whole. */
  lemma FirstDigitRunOfDigits(digits: string)
    requires |digits| >= 1 && AllDigits(digits)
    ensures FirstDigitRun(digits) == Some(digits)
  {
    LeadingDigitsOfDigits(digits);
  }

  /** Writing page p into the page-info element and reading it back gives p. */
  lemma PageInfoRoundTrip(p: nat)
    requires p >= 1
    ensures PageFromInfo(PageInfoText(p)) == Some(p)
  {
    var digits := NatText(p);
    assert forall i :: 0 <= i < |PAGE_INFO_PREFIX| ==> !IsDigit(PAGE_INFO_PREFIX[i]);
    FirstDigitRunSkips(PAGE_INFO_PREFIX, digits);
    FirstDigitRunOfDigits(digits);
    NatTextValue(p);
  }
}

=== FILE: records_state.dfy ===
/**
 * The records page's state (WEB/records.js) as a value, and the transitions
 * loadData, updateTable, updatePageButtons and the navigation clicks make on
 * it. The class RecordsView.RecordsPage performs these in place.
 */
module RecordsState {
  import opened JsValues
  import opened RecordsModel

  /**
   * What one call of updatePageButtons drew: the page and the page count its
   * click handlers captured, the page-number links and the four links' disabled
   * flags.
   */
  datatype PageButtons = PageButtons(page: nat, total: nat, numbers: seq<PageButton>, flags: NavFlags)

  /**
   * recordsData, the chart slots, the table body, the text of the page-info
   * element (None: the page has no such element), the flags updateTable set
   * on the navigation links (None: not yet run) and the drawn page buttons
   * (None: not yet drawn).
   */
  datatype Page = Page(
    recordsData: seq<Row>,
    charts: Charts,
    tableBody: TableBody,
    pageInfo: Option<string>,
    flags: Option<NavFlags>,
    buttons: Option<PageButtons>)

  /** Before loadData: no rows, no charts, the page's own markup. */
  function InitialPage(pageInfo: Option<string>): (s: Page)
    ensures s.recordsData == [] && s.charts == NoCharts() && s.buttons.None?
  {
    Page([], NoCharts(), Placeholder, pageInfo, None, None)
  }

  /**
   * The API's answer as loadData sees it: a failure before the records are
   * read (the fetch rejects, a non-OK status, a body that is not JSON), a
   * result without a `records` field, or the records.
   */
  datatype ApiResponse = Failed | NoRecords | Records(records: seq<RawRecord>)

  /** A transition that may throw (a TypeError) part-way; `state` is the state at that point. */
  datatype Outcome = Outcome(state: Page, threw: bool)

  /** updatePageButtons(p, total); nothing when the page has no button container. */
  function UpdatePageButtons(s: Page, p: nat, total: nat, hasContainer: bool): (r: Page)
    requires p >= 1
    ensures !hasContainer ==> r == s
    ensures hasContainer ==> r.buttons.Some? && r.buttons.value.page == p && r.buttons.value.total == total
    ensures hasContainer ==> ButtonsDrawnFor(r)
    ensures r.(buttons := s.buttons) == s
  {
    if !hasContainer then s
    else s.(buttons := Some(PageButtons(p, total, NumberButtons(p, total), ButtonFlags(p, total))))
  }

  /**
   * updateTable: read the current page from the page-info text (it throws,
   * changing nothing, when that text has no digit), show that page's slice,
   * write the page back, set the link flags and redraw the page buttons.
   */
  function UpdateTable(s: Page, hasContainer: bool): (r: Outcome)
    ensures r.threw <==> CurrentPage(s.pageInfo).None?
    ensures r.threw ==> r.state == s
    ensures !r.threw ==> r.state.recordsData == s.recordsData && r.state.charts == s.charts
  {
    match CurrentPage(s.pageInfo)
    case None => Outcome(s, true)
    case Some(p) =>
      var n := |s.recordsData|;
      var shown := s.(tableBody := TableFor(s.recordsData, p),
                      pageInfo := if s.pageInfo.Some? then Some(PageInfoText(p)) else None,
                      flags := Some(TableFlags(p, n)));
      Outcome(UpdatePageButtons(shown, p, TotalPages(n), hasContainer), false)
  }

  /**
   * loadData after the fetch: an error row on failure; the "no data" row and
   * no charts for an empty answer (recordsData is kept); otherwise the shaped
   * rows replace recordsData and either the "nothing processed" row is shown
   * or the table and then the charts are drawn. An exception from updateTable
   * lands in loadData's catch and shows the error row, with no charts drawn.
   */
  function LoadData(s: Page, response: ApiResponse, t: DataType, clock: Json -> Stamp, hasContainer: bool): (r: Page)
    ensures response.Failed? ==> r == s.(tableBody := LoadFailed)
    ensures response.Records? ==> r.recordsData == ShapeRecords(response.records, t, clock) || response.records == []
  {
    match response
    case Failed => s.(tableBody := LoadFailed)
    case NoRecords => s.(tableBody := NoData, charts := NoCharts())
    case Records(rs) =>
      if rs == [] then s.(tableBody := NoData, charts := NoCharts())
      else
        var rows := ShapeRecords(rs, t, clock);
        var loaded := s.(recordsData := rows);
        if rows == [] then loaded.(tableBody := NothingProcessed)
        else
          var o := UpdateTable(loaded, hasContainer);
          if o.threw then o.state.(tableBody := LoadFailed)
          else o.state.(charts := ChartsFor(rows, t))
  }

  /**
   * A click on one of the drawn links: nothing when no links are drawn or
   * the link's handler declines; otherwise the target page is written to the
   * page-info element (which throws when there is none) and updateTable runs.
   */
  function Navigate(s: Page, a: NavAction, hasContainer: bool): (r: Outcome)
    ensures s.buttons.None? ==> r == Outcome(s, false)
    ensures s.buttons.Some? && NavTarget(a, s.buttons.value.page, s.buttons.value.total, s.buttons.value.numbers).None?
            ==> r == Outcome(s, false)
    ensures s.buttons.Some? && s.pageInfo.None?
            && NavTarget(a, s.buttons.value.page, s.buttons.value.total, s.buttons.value.numbers).Some?
            ==> r == Outcome(s, true)
  {
    match s.buttons
    case None => Outcome(s, false)
    case Some(b) =>
      match NavTarget(a, b.page, b.total, b.numbers)
      case None => Outcome(s, false)
      case Some(target) =>
        if s.pageInfo.None? then Outcome(s, true)
        else UpdateTable(s.(pageInfo := Some(PageInfoText(target))), hasContainer)
  }

  // ---------------------------------------------------------------------
  // Properties

  /** The drawn links match the page and page count they were drawn for. */
  ghost predicate ButtonsDrawnFor(s: Page) {
    s.buttons.Some? ==>
      var b := s.buttons.value;
      b.page >= 1 && b.numbers == NumberButtons(b.page, b.total) && b.flags == ButtonFlags(b.page, b.total)
  }

  /**
   * A successful updateTable shows the page it read: the table holds that
   * page's slice, the page-info text names it, the buttons are drawn for it
   * over all pages of recordsData, and both rules for the links agree.
   */
  lemma UpdateTableShowsPage(s: Page, hasContainer: bool)
    requires CurrentPage(s.pageInfo).Some?
    ensures var p := CurrentPage(s.pageInfo).value;
      var r := UpdateTable(s, hasContainer).state;
      var total := TotalPages(|s.recordsData|);
      && r.tableBody == TableFor(s.recordsData, p)
      && (r.pageInfo.Some? <==> s.pageInfo.Some?)
      && CurrentPage(r.pageInfo) == Some(p)
      && r.flags == Some(ButtonFlags(p, total))
      && (hasContainer ==> r.buttons == Some(PageButtons(p, total, NumberButtons(p, total), ButtonFlags(p, total))))
  {
    var p := CurrentPage(s.pageInfo).value;
    PageInfoRoundTrip(p);
    FlagsAgree(p, |s.recordsData|);
  }

  /** Redrawing the table a second time changes nothing. */
  lemma UpdateTableIdempotent(s: Page, hasContainer: bool)
    requires !UpdateTable(s, hasContainer).threw
    ensures var r := UpdateTable(s, hasContainer).state;
      UpdateTable(r, hasContainer) == Outcome(r, false)
  {
    UpdateTableShowsPage(s, hasContainer);
  }

  /** updateTable keeps the drawn links matching the page they were drawn for. */
  lemma UpdateTableKeepsButtonsDrawnFor(s: Page, hasContainer: bool)
    requires ButtonsDrawnFor(s)
    ensures ButtonsDrawnFor(UpdateTable(s, hasContainer).state)
  {
  }

  /** loadData keeps the drawn links matching the page they were drawn for. */
  lemma LoadDataKeepsButtonsDrawnFor(s: Page, response: ApiResponse, t: DataType,
                                     clock: Json -> Stamp, hasContainer: bool)
    requires ButtonsDrawnFor(s)
    ensures ButtonsDrawnFor(LoadData(s, response, t, clock, hasContainer))
  {
    if response.Records? && response.records != [] {
      var loaded := s.(recordsData := ShapeRecords(response.records, t, clock));
      UpdateTableKeepsButtonsDrawnFor(loaded, hasContainer);
    }
  }

  /** So does every click. */
  lemma NavigateKeepsButtonsDrawnFor(s: Page, a: NavAction, hasContainer: bool)
    requires ButtonsDrawnFor(s)
    ensures ButtonsDrawnFor(Navigate(s, a, hasContainer).state)
  {
    if s.buttons.Some? && s.pageInfo.Some? {
      var b := s.buttons.value;
      var target := NavTarget(a, b.page, b.total, b.numbers);
      if target.Some? {
        UpdateTableKeepsButtonsDrawnFor(s.(pageInfo := Some(PageInfoText(target.value))), hasContainer);
      }
    }
  }

  /** What happens to the page after the script has loaded: an API answer, or a click on a link. */
  datatype PageEvent = Answered(response: ApiResponse) | Clicked(action: NavAction)

  /** One event; a click whose handler throws leaves the state it had reached. */
  function PageStep(s: Page, e: PageEvent, t: DataType, clock: Json -> Stamp, hasContainer: bool): Page {
    match e
    case Answered(response) => LoadData(s, response, t, clock, hasContainer)
    case Clicked(a) => Navigate(s, a, hasContainer).state
  }

  /** A sequence of events, in order. */
  function RunPage(s: Page, es: seq<PageEvent>, t: DataType, clock: Json -> Stamp, hasContainer: bool): Page
    decreases |es|
  {
    if es == [] then s else RunPage(PageStep(s, es[0], t, clock, hasContainer), es[1..], t, clock, hasContainer)
  }

  /**
   * Along any sequence of loads and clicks, the drawn links match the page
   * and count they were drawn for (the initial page has none drawn).
   */
  lemma {:induction false} ButtonsDrawnForOnEveryRun(s: Page, es: seq<PageEvent>, t: DataType,
                                                     clock: Json -> Stamp, hasContainer: bool)
    requires ButtonsDrawnFor(s)
    ensures ButtonsDrawnFor(RunPage(s, es, t, clock, hasContainer))
    decreases |es|
  {
    if es != [] {
      match es[0] {
        case Answered(response) => LoadDataKeepsButtonsDrawnFor(s, response, t, clock, hasContainer);
        case Clicked(a) => NavigateKeepsButtonsDrawnFor(s, a, hasContainer);
      }
      ButtonsDrawnForOnEveryRun(PageStep(s, es[0], t, clock, hasContainer), es[1..], t, clock, hasContainer);
    }
  }

  /**
   * A followed link shows its target: from buttons drawn for a page in 1..total,
   * the new page is in 1..total, the table holds its slice and the page-info
   * text names it.
   */
  lemma NavigateShowsTarget(s: Page, a: NavAction, hasContainer: bool)
    requires ButtonsDrawnFor(s) && s.buttons.Some? && s.pageInfo.Some?
    requires 1 <= s.buttons.value.page <= s.buttons.value.total
    requires NavTarget(a, s.buttons.value.page, s.buttons.value.total, s.buttons.value.numbers).Some?
    ensures var b := s.buttons.value;
      var target := NavTarget(a, b.page, b.total, b.numbers).value;
      var r := Navigate(s, a, hasContainer);
      && 1 <= target <= b.total
      && !r.threw
      && r.state.tableBody == TableFor(s.recordsData, target)
      && r.state.pageInfo == Some(PageInfoText(target))
  {
    var b := s.buttons.value;
    NavigationStaysInRange(a, b.page, b.total);
    var target := NavTarget(a, b.page, b.total, b.numbers).value;
    PageInfoRoundTrip(target);
  }

  /** A load whose shaped rows are not empty runs updateTable on them, then draws the charts unless that threw. */
  lemma LoadDataDrawsTable(s: Page, rs: seq<RawRecord>, t: DataType, clock: Json -> Stamp, hasContainer: bool)
    requires ShapeRecords(rs, t, clock) != []
    ensures var rows := ShapeRecords(rs, t, clock);
      var o := UpdateTable(s.(recordsData := rows), hasContainer);
      LoadData(s, Records(rs), t, clock, hasContainer)
        == if o.threw then o.state.(tableBody := LoadFailed) else o.state.(charts := ChartsFor(rows, t))
  {
  }

  /**
   * A load with rows left after shaping: when the page-info text has no
   * digit, updateTable throws before drawing and the error row is shown over
   * the new rows; otherwise the page it names is shown, with its slice, its
   * number, its link flags and links, and the charts are drawn.
   */
  lemma LoadDataShowsCurrentPage(s: Page, rs: seq<RawRecord>, t: DataType, clock: Json -> Stamp, hasContainer: bool)
    requires ShapeRecords(rs, t, clock) != []
    ensures var rows := ShapeRecords(rs, t, clock);
      var r := LoadData(s, Records(rs), t, clock, hasContainer);
      CurrentPage(s.pageInfo).None? ==> r == s.(recordsData := rows, tableBody := LoadFailed)
    ensures var rows := ShapeRecords(rs, t, clock);
      var r := LoadData(s, Records(rs), t, clock, hasContainer);
      var total := TotalPages(|rows|);
      CurrentPage(s.pageInfo).Some? ==>
        var p := CurrentPage(s.pageInfo).value;
        && r.recordsData == rows
        && r.tableBody == TableFor(rows, p)
        && r.charts == ChartsFor(rows, t)
        && (r.pageInfo.Some? <==> s.pageInfo.Some?)
        && CurrentPage(r.pageInfo) == Some(p)
        && r.flags == Some(ButtonFlags(p, total))
        && (hasContainer ==> r.buttons == Some(PageButtons(p, total, NumberButtons(p, total), ButtonFlags(p, total))))
  {
    var rows := ShapeRecords(rs, t, clock);
    var loaded := s.(recordsData := rows);
    LoadDataDrawsTable(s, rs, t, clock, hasContainer);
    if CurrentPage(s.pageInfo).Some? {
      UpdateTableShowsPage(loaded, hasContainer);
    }
  }

  /**
   * The first load on a fresh page (page-info "페이지 1", or none) shows the
   * first twenty shaped rows and draws the charts for the data type.
   */
  lemma FirstLoadShowsFirstPage(s: Page, rs: seq<RawRecord>, t: DataType,
                                clock: Json -> Stamp, hasContainer: bool)
    requires s.pageInfo == Some(PageInfoText(1)) || s.pageInfo.None?
    requires ShapeRecords(rs, t, clock) != []
    ensures var rows := ShapeRecords(rs, t, clock);
      var r := LoadData(s, Records(rs), t, clock, hasContainer);
      && r.recordsData == rows
      && r.tableBody == Rows(rows[..Min(ROWS_PER_PAGE, |rows|)])
      && r.charts == ChartsFor(rows, t)
      && r.pageInfo == s.pageInfo
  {
    var rows := ShapeRecords(rs, t, clock);
    var loaded := s.(recordsData := rows);
    PageInfoRoundTrip(1);
    assert CurrentPage(loaded.pageInfo) == Some(1);
    assert PageSlice(rows, 1) == rows[..Min(ROWS_PER_PAGE, |rows|)];
    var o := UpdateTable(loaded, hasContainer);
    assert !o.threw && o.state.tableBody == Rows(rows[..Min(ROWS_PER_PAGE, |rows|)]);
    assert o.state.recordsData == rows && o.state.pageInfo == s.pageInfo;
    LoadDataDrawsTable(s, rs, t, clock, hasContainer);
  }

  /** An empty answer clears the charts but keeps the rows of an earlier load. */
  lemma EmptyAnswerKeepsRows(s: Page, t: DataType, clock: Json -> Stamp, hasContainer: bool)
    ensures LoadData(s, NoRecords, t, clock, hasContainer) == s.(tableBody := NoData, charts := NoCharts())
    ensures LoadData(s, Records([]), t, clock, hasContainer).recordsData == s.recordsData
  {
  }

  /** When every record lacks a timestamp, recordsData is emptied and no table or chart is drawn. */
  lemma NothingProcessedClearsRows(s: Page, rs: seq<RawRecord>, t: DataType, clock: Json -> Stamp, hasContainer: bool)
    requires rs != [] && forall i :: 0 <= i < |rs| ==> !Truthy(Field(rs[i], "timestamp"))
    ensures LoadData(s, Records(rs), t, clock, hasContainer)
            == s.(recordsData := [], tableBody := NothingProcessed)
  {
    ShapeRecordsNoneKept(rs, t, clock);
  }

  lemma {:induction false} ShapeRecordsNoneKept(rs: seq<RawRecord>, t: DataType, clock: Json -> Stamp)
    requires forall i :: 0 <= i < |rs| ==> !Truthy(Field(rs[i], "timestamp"))
    ensures ShapeRecords(rs, t, clock) == []
  {
    if rs != [] {
      ShapeRecordsNoneKept(rs[1..], t, clock);
    }
  }
}

=== FILE: records_view.dfy ===
/**
 * The records page's module-level variables (WEB/records.js) and the parts
 * of its DOM the functions write, kept as the fields of one object. Each
 * method is specified by the transition of RecordsState it performs.
 */
module RecordsView {
  import opened JsValues
  import opened RecordsModel
  import opened RecordsState

  class RecordsPage {
    /** currentDataType, fixed when the script loads. */
    const dataType: DataType
    /** Whether the page has the #pageButtons container. */
    const hasContainer: bool

    var recordsData: seq<Row>
    var charts: Charts
    var tableBody: TableBody
    var pageInfo: Option<string>
    var flags: Option<NavFlags>
    var buttons: Option<PageButtons>

    function Snapshot(): Page
      reads this
    {
      Page(recordsData, charts, tableBody, pageInfo, flags, buttons)
    }

    /** Script load: the data type from the URL's `type` parameter, nothing loaded yet. */
    constructor (typeParam: Option<string>, initialPageInfo: Option<string>, container: bool)
      ensures dataType == DataTypeFromUrl(typeParam) && hasContainer == container
      ensures Snapshot() == InitialPage(initialPageInfo)
    {
      dataType := DataTypeFromUrl(typeParam);
      hasContainer := container;
      recordsData := [];
      charts := NoCharts();
      tableBody := Placeholder;
      pageInfo := initialPageInfo;
      flags := None;
      buttons := None;
    }

    /** createCharts: destroy every chart, then draw the data type's three. */
    method CreateCharts()
      modifies this
      ensures Snapshot() == old(Snapshot()).(charts := ChartsFor(recordsData, dataType))
    {
      charts := NoCharts();
      charts := ChartsFor(recordsData, dataType);
    }

    /**
     * updatePageButtons(p, total): the page-number links are drawn one by one
     * from the window's first page to its last.
     */
    method UpdatePageButtons(p: nat, total: nat)
      requires p >= 1
      modifies this
      ensures Snapshot() == RecordsState.UpdatePageButtons(old(Snapshot()), p, total, hasContainer)
    {
      if !hasContainer {
        return;
      }
      var start := WindowStart(p);
      var end := WindowEnd(p, total);
      var numbers: seq<PageButton> := [];
      var i := start;
      while i <= end
        invariant start <= i && (i <= end + 1 || i == start)
        invariant |numbers| == i - start
        invariant forall k :: 0 <= k < |numbers| ==> numbers[k] == PageButton(start + k, start + k == p)
      {
        if i <= total {
          numbers := numbers + [PageButton(i, i == p)];
        }
        i := i + 1;
      }
      assert numbers == NumberButtons(p, total);
      buttons := Some(PageButtons(p, total, numbers, ButtonFlags(p, total)));
    }

    /**
     * updateTable: the rows of the current page are copied one by one into
     * the table; `threw` reports the TypeError of a page-info text without a
     * digit, before anything is written.
     */
    method UpdateTable() returns (threw: bool)
      modifies this
      ensures threw == RecordsState.UpdateTable(old(Snapshot()), hasContainer).threw
      ensures Snapshot() == RecordsState.UpdateTable(old(Snapshot()), hasContainer).state
    {
      ghost var s0 := Snapshot();
      var current := CurrentPage(pageInfo);
      if current.None? {
        return true;
      }
      var p := current.value;
      var page := PageSlice(recordsData, p);
      if |page| == 0 {
        tableBody := NoData;
      } else {
        var rows := AppendRows(page);
        tableBody := Rows(rows);
      }
      assert tableBody == TableFor(recordsData, p);
      if pageInfo.Some? {
        pageInfo := Some(PageInfoText(p));
      }
      var n := |recordsData|;
      flags := Some(TableFlags(p, n));
      assert Snapshot() == s0.(tableBody := TableFor(s0.recordsData, p),
                               pageInfo := if s0.pageInfo.Some? then Some(PageInfoText(p)) else None,
                               flags := Some(TableFlags(p, n)));
      UpdatePageButtons(p, TotalPages(n));
      threw := false;
    }

    /** The forEach of updateTable: one table row appended per record of the page, in order. */
    static method AppendRows(page: seq<Row>) returns (rows: seq<Row>)
      ensures |rows| == |page|
      ensures forall k :: 0 <= k < |page| ==> rows[k] == page[k]
    {
      rows := [];
      var i := 0;
      while i < |page|
        invariant 0 <= i <= |page|
        invariant rows == page[..i]
      {
        rows := rows + [page[i]];
        i := i + 1;
      }
    }

    /** loadData once the API has answered. */
    method LoadData(response: ApiResponse, clock: Json -> Stamp)
      modifies this
      ensures Snapshot() == RecordsState.LoadData(old(Snapshot()), response, dataType, clock, hasContainer)
    {
      match response {
        case Failed =>
          tableBody := LoadFailed;
        case NoRecords =>
          tableBody := NoData;
          charts := NoCharts();
        case Records(rs) =>
          if rs == [] {
            tableBody := NoData;
            charts := NoCharts();
            return;
          }
          recordsData := ShapeRecords(rs, dataType, clock);
          if |recordsData| > 0 {
            var threw := UpdateTable();
            if threw {
              tableBody := LoadFailed;
            } else {
              CreateCharts();
            }
          } else {
            tableBody := NothingProcessed;
          }
      }
    }

    /** A click on one of the drawn links; `threw` when there is no page-info element to write. */
    method Navigate(a: NavAction) returns (threw: bool)
      modifies this
      ensures threw == RecordsState.Navigate(old(Snapshot()), a, hasContainer).threw
      ensures Snapshot() == RecordsState.Navigate(old(Snapshot()), a, hasContainer).state
    {
      if buttons.None? {
        return false;
      }
      var b := buttons.value;
      var target := NavTarget(a, b.page, b.total, b.numbers);
      if target.None? {
        return false;
      }
      if pageInfo.None? {
        return true;
      }
      pageInfo := Some(PageInfoText(target.value));
      threw := UpdateTable();
    }
  }
}
